=== FILE: README.md ===
# gr-render core in Dafny

A model of the core of gr-render, a thin C++ wrapper over OpenGL. The model covers:

- **Shared vocabulary** (`include/gr-render/gCommon.h`, module `Common`). This covers:
  - the `BufferType`, `PrimitiveType` and `TextureFormat` enumerations with their numeric values, and the two `BufferUsage` cases;
  - the `gTextureFlags` bits and the `gTextureCubemapFace` values;
  - the `RenderState` bits;
  - the invalid-id sentinels.
- **Texture flag word** (`src/gTexture.cpp`, module `Texture`):
  - the grouped setters (`set_filtering`, `set_clamping`, `set_face`, `set_texture`, `generate_mipmaps`);
  - the decisions read from the word: binding target, the cubemap face of an upload, wrap mode, min and mag filters;
  - the 20-row format table;
  - the call sequence of `updateBuffer`.
- **Shader uniform registry** (`src/gShader.cpp`, module `Shader`):
  - a fixed table of `MAX_UNIFORM` = 200 slots;
  - `findUniform`, `registry`, both `setUniform` overloads, `flush`, `cleanUniform`, `getName` and `isValid`.
  - `isValid` is the predicate `Shader.IsValid`: a link status plus a program name.
- **Buffer index** (`src/gVertexArray.cpp`, module `VertexArray`):
  - the `bufferMappings` and `primitiveMappings` tables;
  - `m_bufferIndex` with `CreateBuffer`, `DeleteBuffer` and `Bind`, and the `s_currentBuffer` cell;
  - the usage switch and resize loop of `UpdateResizeBuffer`;
  - the current vertex-array object set by `bind` and `unbind`.
- **Render-state translation** (`src/gRender.cpp`, module `Render`): `SetRenderState(RenderState, u32)` with `m_renderStateMap`, and `getRenderStateName`.

Modelling conventions:

- **GL constants** are symbolic: the `Gl.GLenum` datatype, one constructor per name. The wrapper's branches do not depend on their numeric values, but names that share a value in GL (`GL_ZERO`, `GL_FALSE` and `GL_POINTS` are 0; `GL_TRUE` and `GL_LINES` are 1) are distinct constructors, so a trace tells apart calls the driver cannot (see `Render.DepthMaskArgument` under Left out).
- **Native calls** are entries of a `Gl.Cmd` trace, recorded in the order the wrapper issues them.
- **Class statics and object fields** are immutable values. Each operation takes the old value and returns the new one.
- **Values the driver hands back** are parameters of the operation:
  - the name from `glGenBuffers` or `glGenTextures`;
  - the location from `glGetUniformLocation`;
  - the successive sizes from `glGetBufferParameteriv`.
- **Flag words** are bit-vectors: `bv32` for texture flags, `bv64` for `RenderState`. Masks, complements and tests are the C++ ones.
- **`updateBuffer`'s calls** are built from a `Texture.Plan`: the decisions read from the texture before the call, which are the name, the upload target, the format row and the sampler state. The lemmas about the shape of the calls hold for any plan. `Texture.PlanOf` ties the plan to the flag word.
- **`std::unordered_map::operator[]`** inserts a default on a miss. `Base.Subscript` models this for the buffer index. `Render.Subscript` models it for the render-state map.

The headers `gShader.h`, `gTexture.h` and `gVertexArray.h` declare members that differ from the `.cpp` files. For example, the header's `Uniform` has a `type` field where the `.cpp` uses `variable`. The model follows the `.cpp` files throughout.

Two table quirks of the source are kept as written:

- The `RGBA16F` and `RGBA32F` rows upload with pixel format `GL_RGB`.
- `m_renderStateMap` has no `GR_DEPTH_GEQUAL` entry, so that setting passes 0 to `glDepthFunc`.

## Model

| member | source | states |
|---|---|---|
| Base.Subscript | src/gVertexArray.cpp:83-85 | operator[] returns the stored value for a present key. For a missing key it inserts the default and returns it. All other entries are kept. |
| Base.SubscriptPreservesLookups | src/gVertexArray.cpp:83-85 | The insertion made by operator[] never changes what any key reads afterwards. |
| Common.InvalidIdsAreMaxU32 | include/gr-render/gCommon.h:30-32 | InvalidTextureID and InvalidRenderbufferID are both the largest u32. |
| Common.BufferTypeValue | include/gr-render/gCommon.h:34-41 | Every BufferType value is below 5, the length of bufferMappings. |
| Common.BufferTypeContiguous | include/gr-render/gCommon.h:34-41 | The BufferType values are exactly 0..4. Each enumerator round-trips through its value. |
| Common.PrimitiveValue | include/gr-render/gCommon.h:48-57 | Every PrimitiveType value is below 7, the length of primitiveMappings. |
| Common.PrimitiveTypeContiguous | include/gr-render/gCommon.h:48-57 | The PrimitiveType values are exactly 0..6. Each enumerator round-trips through its value. |
| Common.FormatValue | include/gr-render/gCommon.h:59-81 | Every TextureFormat value is below 20, the length of the format table. |
| Common.TextureFormatContiguous | include/gr-render/gCommon.h:59-81 | The n-th declared format has value n. The values are distinct and cover 0..19. |
| Common.TextureFlagPositions | include/gr-render/gCommon.h:91-110 | The n-th declared texture flag is 1 << n, for the 17 flags. |
| Common.TextureFlagsAreDistinctBits | include/gr-render/gCommon.h:91-110 | Every texture flag is a single bit, and no two flags overlap. |
| Common.FaceRank | include/gr-render/gCommon.h:112-119 | The six faces have ranks 0..5. |
| Common.CubemapFacesAreFaceFlags | include/gr-render/gCommon.h:112-119 | Each face equals exactly one Cubemap_* flag, bit 8 plus its rank, and the faces are pairwise disjoint single bits. |
| Common.FaceAllIsTheSixFaces | include/gr-render/gCommon.h:112-121 | The All value is the OR of the six face bits. It holds every face and no other texture flag. |
| Common.RenderStatePositions | include/gr-render/gCommon.h:131-159 | The n-th declared RenderState is 1 << (n + 1). |
| Common.RenderStatesAreDistinctBits | include/gr-render/gCommon.h:131-159 | Every RenderState is a single bit that fits a u32, and no two overlap. |
| Texture.ReplaceGroupFrame | src/gTexture.cpp:146-158 | A grouped setter whose argument stays inside its group leaves every bit outside the group unchanged. |
| Texture.SetFiltering | src/gTexture.cpp:146-151 | The filter bits become the argument's filter bits. Outside the group, bits are the old word OR the argument. |
| Texture.SetClamping | src/gTexture.cpp:153-158 | The clamp bits become the argument's clamp bits. Outside the group, bits are the old word OR the argument. |
| Texture.SetTexture | src/gTexture.cpp:160-168 | The result is never both a cubemap and a 2D texture. It is a 2D texture exactly when the argument asks for one. |
| Texture.SetTextureCubemap | src/gTexture.cpp:160-168 | The result is a cubemap exactly when the argument asks for a cubemap and not for a 2D texture. |
| Texture.SetTextureFrame | src/gTexture.cpp:160-168 | Outside the kind bits the argument is ORed in, unless it asked for both kinds. Then the other bits are kept as they were. |
| Texture.SetFace | src/gTexture.cpp:175-180 | The face bits become the argument's face bits. Outside the group, bits are the old word OR the argument. |
| Texture.GenerateMipmaps | src/gTexture.cpp:182-185 | The MipMaps bit is set and no other bit changes. |
| Texture.GenerateMipmapsIdempotent | src/gTexture.cpp:182-185 | Generating mipmaps twice gives the same word as once. |
| Texture.LastGroupSetWins | src/gTexture.cpp:146-158 | A second grouped set overrides a first one that stayed inside the group. Nothing of the first survives. |
| Texture.NewTexture | src/gTexture.cpp:43-49 | A new texture is a 2D texture with repeat clamping and linear filtering. It has RGB format, zero size and no valid name. |
| Texture.IsCubemap | src/gTexture.cpp:136-139 | isCubemap: the Cubemap bit is set. A predicate without a contract; SetTextureCubemap and TargetTexture state what depends on it. |
| Texture.IsTexture2D | src/gTexture.cpp:141-144 | isTexture2D: the Texture bit is set. A predicate without a contract; SetTexture states when it holds. |
| Texture.IsValid | src/gTexture.cpp:131-134 | isValid: the name differs from InvalidTextureID. A predicate without a contract; UpdateBuffer and NameGeneratedOnce state how a name becomes valid. |
| Texture.TargetTexture | src/gTexture.cpp:121-124 | The target is TEXTURE_CUBE_MAP exactly for a cubemap word, and TEXTURE_2D otherwise. |
| Texture.SelectedFace | src/gTexture.cpp:62-76 | No face is selected iff no face bit is set. Otherwise the selected face is the first set face in the order +X, -X, +Y, -Y, +Z, -Z. |
| Texture.UploadTarget | src/gTexture.cpp:59-76 | The target handed to glTexImage2D. It carries no contract of its own; UploadTargetChoice, SingleFaceUpload and SetFaceThenUpload state its choice. |
| Texture.UploadTargetChoice | src/gTexture.cpp:59-76 | A non-cubemap uploads to TEXTURE_2D. A cubemap without face bits uploads to TEXTURE_CUBE_MAP. Otherwise the upload goes to the first set face's target. |
| Texture.SingleFaceUpload | src/gTexture.cpp:62-76 | A cubemap with exactly one face bit uploads to that face's target. |
| Texture.SetFaceThenUpload | src/gTexture.cpp:160-180 | After set_texture(Cubemap) and set_face(f), the upload goes to face f, whatever the word held before. |
| Texture.WrapMode | src/gTexture.cpp:188-204 | Clamp_Edge gives CLAMP_TO_EDGE. Otherwise Clamp_Border gives CLAMP_TO_BORDER. Otherwise the mode is REPEAT. All three cases are iff. |
| Texture.SetClampingSelectsWrap | src/gTexture.cpp:153-208 | Setting each clamp flag alone selects that flag's wrap mode, whatever the previous word. |
| Texture.MagFilter | src/gTexture.cpp:242-249 | The mag filter is NEAREST iff Nearest is set without Linear, and LINEAR otherwise. |
| Texture.MinFilter | src/gTexture.cpp:213-240 | With mipmaps: Trilinear gives LINEAR_MIPMAP_LINEAR, else Bilinear gives LINEAR_MIPMAP_NEAREST, else LINEAR (each iff). Without mipmaps it equals the mag filter. |
| Texture.SetFilteringSelectsFilters | src/gTexture.cpp:146-253 | Without mipmaps, Nearest or Linear selects that sampling both ways. With mipmaps, Nearest still minifies with LINEAR while the mag filter is NEAREST, and Linear gives LINEAR for the mag filter always. Trilinear and Bilinear after generate_mipmaps select the mipmapped minifiers. |
| Texture.FormatInfoOf | src/gTexture.cpp:9-30 | The 20 rows of TextureFormatInfoMapping, one per format. It carries no contract of its own; FormatInfoFloatRows, FormatInfoAlphaRows and FormatInfoInjective state its properties. |
| Texture.FormatInfoFloatRows | src/gTexture.cpp:9-30 | A row's pixel type is FLOAT exactly for the formats named 16F or 32F and for DepthComponent. |
| Texture.FormatInfoAlphaRows | src/gTexture.cpp:9-30 | A row's pixel format is RGBA exactly for the non-float formats with alpha. The float RGBA formats upload as RGB. |
| Texture.FormatInfoInjective | src/gTexture.cpp:9-30 | No two formats share a table row. |
| Texture.ApplyMipmaps | src/gTexture.cpp:255-260 | One glGenerateMipmap on the target iff mipmaps are wanted, and nothing otherwise. |
| Texture.ApplyClamping | src/gTexture.cpp:188-209 | Three glTexParameteri calls for WRAP_S, WRAP_R and WRAP_T, all with the same wrap mode. |
| Texture.ApplyFiltering | src/gTexture.cpp:211-253 | The min filter is set, then the mag filter, each to the selected filter. |
| Texture.SamplerCallsFollowFlags | src/gTexture.cpp:188-260 | For a flag word, mipmaps are generated iff MipMaps is set. Every wrap call uses WrapMode, and the filter calls use MinFilter then MagFilter, all on the word's target. |
| Texture.PlanOf | src/gTexture.cpp:51-76 | The decisions updateBuffer reads from the texture before it issues a call: validity and name, upload target, format row and sampler state. It carries no contract; the UpdateBuffer* lemmas hold for every plan. |
| Texture.UpdatePrologue | src/gTexture.cpp:56-59 | A name is generated iff the texture has no valid name. The last call of the prologue binds the target under the kept or newly generated name, and a valid texture issues only that bind. |
| Texture.UpdateEpilogue | src/gTexture.cpp:84-93 | After the upload come apply_mipmaps, apply_clamping and apply_filtering, in that order, then the unbind of the target. These calls generate no name and upload no image. |
| Texture.UpdateCalls | src/gTexture.cpp:51-94 | The calls of updateBuffer: prologue, the one glTexImage2D, epilogue. It carries no contract; the UpdateBuffer* lemmas state its shape. |
| Texture.UpdateBuffer | src/gTexture.cpp:51-94 | The new size is stored. The name is kept when valid and replaced by the generated one otherwise. Flags and format are unchanged. |
| Texture.UpdateBufferTrace | src/gTexture.cpp:51-59 | The calls open with glGenTextures exactly when there is no valid name, followed by the bind under the kept or generated name. Seven calls follow, plus one with mipmaps. |
| Texture.UpdateBufferUpload | src/gTexture.cpp:59-93 | Right after the bind, the image goes to the upload target with the format's row. The target is unbound last. |
| Texture.UpdateBufferSamplerCalls | src/gTexture.cpp:84-93 | For a texture, the calls after the upload are its word's mipmap, clamping and filtering calls in that order, then the unbind. With SamplerCallsFollowFlags these use WrapMode, MinFilter and MagFilter. |
| Texture.UpdateBufferImage | src/gTexture.cpp:59-83 | For a texture, the image updateBuffer uploads goes to UploadTarget of its flag word, with the internal format, pixel format and pixel type of its own format's row. |
| Texture.UpdateBufferSingleFace | src/gTexture.cpp:59-83 | A cubemap whose face group holds exactly one face has its image uploaded by updateBuffer to that face's target. |
| Texture.UpdateBufferSingleUpload | src/gTexture.cpp:59-93 | No call other than the one after the bind uploads an image. |
| Texture.UpdateBufferNameFirst | src/gTexture.cpp:56-93 | No call after the first asks for a name. |
| Texture.ValidNameNotRegenerated | src/gTexture.cpp:56-59 | A texture that already has a valid name asks for no name at all. |
| Texture.NameGeneratedOnce | src/gTexture.cpp:56-57 | Once an update has obtained a valid name, a later update keeps it and asks the driver for no new name. |
| Shader.ElementSize | src/gShader.cpp:137-167 | Integers, booleans and samplers use GLint's size and FLOAT uses GLfloat's. Types the switch does not list have no size. |
| Shader.UploadKindOf | src/gShader.cpp:232-260 | Integer, boolean and sampler types upload through glUniform1iv. Unlisted types upload nothing. |
| Shader.Valid | src/gShader.cpp:115-192 | The table invariant registry keeps: 200 slots, numUniform below 200, slots below numUniform registered with distinct names and the rest vacant. A predicate; NewShader, Registry and CleanUniform state that it holds. |
| Shader.IsValid | src/gShader.cpp:110-113 | isValid: linked and holding a program name. A predicate; NewShader states a new shader is not valid. |
| Shader.NewShader | src/gShader.cpp:10-21 | A new shader has an empty, valid table: every slot has no name, no data, an invalid location and no dirty flag. It is not a valid program. |
| Shader.FindFrom | src/gShader.cpp:304-320 | The scan returns the lowest matching slot at or after the start, or InvalidUniformID iff no slot from there matches. |
| Shader.FindUniform | src/gShader.cpp:304-320 | findUniform returns the lowest slot holding the name, or InvalidUniformID iff no slot holds it. |
| Shader.FindRegistered | src/gShader.cpp:304-320 | In a valid table a registered name is found exactly at its own slot. |
| Shader.GetName | src/gShader.cpp:322-325 | getName is null for InvalidUniformID. In a valid table it is non-null exactly for a registered id. |
| Shader.Registry | src/gShader.cpp:115-192 | A known name returns its slot and changes nothing. The call is refused, with the table unchanged, iff the table is full, the location is -1 or the type is unlisted. Otherwise slot numUniform gets the name, location, type and stride count × size, not dirty, and no other slot changes. The table invariant is kept. |
| Shader.RegistryIdempotent | src/gShader.cpp:115-122 | Registering a name a second time returns the same id and has no effect. The id reads back the name. |
| Shader.SetUniformById | src/gShader.cpp:205-216 | The call succeeds iff data is non-null and the slot is registered. On success the slot holds the first stride bytes and is dirty, and nothing else changes. On failure nothing changes. |
| Shader.SetUniformByName | src/gShader.cpp:194-203 | An unknown name returns false with no change. For a known name the call is exactly setUniform(id, data) on the registered slot findUniform returns: it copies the data into that slot, marks it dirty and changes nothing else. It succeeds iff the name is known and data is non-null. |
| Shader.UploadOf | src/gShader.cpp:232-260 | A dirty slot of a listed type uploads at its location with stride / element-size elements. An unlisted type uploads nothing. |
| Shader.FlushTrace | src/gShader.cpp:218-262 | The uploads flush issues for slots lo..hi-1, the highest slot first. It carries no contract; FlushTraceFollowsDirtySlots, FlushTraceSplit and Flush state what it is. |
| Shader.DirtySlotsExact | src/gShader.cpp:218-261 | The visit order lists every dirty slot exactly once, in strictly descending order. |
| Shader.FlushTraceFollowsDirtySlots | src/gShader.cpp:218-261 | flush issues exactly one upload per dirty slot, in descending slot order. |
| Shader.CleanTableFlushesNothing | src/gShader.cpp:225-228 | With no dirty slot, flush issues nothing. |
| Shader.FlushTraceSplit | src/gShader.cpp:220-223 | The uploads of a range are those of its upper part followed by those of its lower part. |
| Shader.Flush | src/gShader.cpp:218-262 | flush issues the uploads of the dirty slots, highest first. It clears every dirty flag and changes nothing else. |
| Shader.RegisterSetFlush | src/gShader.cpp:115-262 | Register, set, then flush on an otherwise clean table issues one upload. It carries the registered count, at the registered location, with the copied bytes. |
| Shader.CleanUniform | src/gShader.cpp:274-292 | Every slot loses its name, data and stride, and gets location -1 and no dirty flag. numUniform becomes 0 and no name is found afterwards. |
| VertexArray.BufferMapping | src/gVertexArray.cpp:27-33 | Every buffer type selects an entry of bufferMappings. |
| VertexArray.MappingsFollowNames | src/gVertexArray.cpp:27-33 | bufferMappings gives each of VBO..TBO the GL target it is named after, and distinct types get distinct targets. |
| VertexArray.PrimitiveMapping | src/gVertexArray.cpp:35-43 | Every primitive type selects an entry of primitiveMappings. |
| VertexArray.PrimitiveMappingsFollowNames | src/gVertexArray.cpp:35-43 | primitiveMappings gives each of the seven primitive types the GL primitive it is named after, and distinct types get distinct primitives. |
| VertexArray.UsageOf | src/gVertexArray.cpp:108-118 | STATIC maps to STATIC_DRAW and DYNAMIC maps to DYNAMIC_DRAW (both iff). |
| VertexArray.NewBufferIndex | src/gVertexArray.cpp:25-45 | The statics start with an empty index and a zero current-buffer cell. |
| VertexArray.CreateBuffer | src/gVertexArray.cpp:47-66 | A zero generated name returns InvalidBufferID and records nothing. Otherwise the name is returned and recorded with its mapped target, and an existing entry is kept. A non-empty upload adds exactly three calls. |
| VertexArray.CreateBufferUpload | src/gVertexArray.cpp:56-61 | The upload binds the new name on the named target, fills it with STATIC_DRAW and unbinds the target. |
| VertexArray.DeleteBuffer | src/gVertexArray.cpp:68-79 | An unregistered id is a no-op with no call. Otherwise exactly that entry is removed and the rest of the index is unchanged. |
| VertexArray.Bind | src/gVertexArray.cpp:81-86 | The cell becomes the recorded target, or 0 for an unregistered id, which is then inserted. That target is bound, and the other entries are kept. |
| VertexArray.CreateBindDelete | src/gVertexArray.cpp:47-86 | A freshly created name binds on its named target. Deleting it restores the index from before the create. |
| VertexArray.CreateKeepsExistingEntry | src/gVertexArray.cpp:63-63 | Creating an already recorded name keeps its first target, so a later bind uses that target. |
| VertexArray.BindTwice | src/gVertexArray.cpp:81-86 | A second bind of the same id leaves the state unchanged and repeats the same call. |
| VertexArray.ToUnsignedIsModulo | src/gVertexArray.cpp:120-120 | The loop compares the queried int as unsigned, that is, modulo 2^32. |
| VertexArray.SettlesOnEqualSize | src/gVertexArray.cpp:120-120 | A non-negative report ends the loop exactly on the requested size. A negative report ends it only on the size that is its unsigned image. |
| VertexArray.ResizeTrace | src/gVertexArray.cpp:102-125 | The calls of n rounds of the resize loop. It carries no contract; ResizeTraceShape and UpdateResizeBuffer state its shape. |
| VertexArray.ResizeTraceShape | src/gVertexArray.cpp:102-125 | After n rounds, the trace alternates size queries, each reporting its observation, with reallocations of the requested size and usage: 2n+1 calls in all. |
| VertexArray.UpdateResizeBuffer | src/gVertexArray.cpp:102-126 | The loop stops at the first report equal to the request and never before. It issues exactly those rounds. If no report matches, every observation was a mismatch. |
| VertexArray.BindInstance | src/gVertexArray.cpp:149-154 | bind makes this object the current instance and binds its VAO name. |
| VertexArray.UnbindInstance | src/gVertexArray.cpp:156-161 | unbind clears the current instance and binds vertex array 0. |
| VertexArray.BindThenUnbind | src/gVertexArray.cpp:149-161 | From any current instance, bind followed by unbind ends in the state unbind alone leaves, after exactly two calls: the object's VAO is bound, then vertex array 0. |
| Render.InitialEntry | src/gRender.cpp:18-29 | The ten entries of the m_renderStateMap initialiser; every other key, GR_DEPTH_GEQUAL among them, has none. It carries no contract; InitialStateMapEntries, InitialDepthEntries and DepthMapInjective state its entries. |
| Render.Subscript | src/gRender.cpp:82-86 | m_renderStateMap[value] makes the key present. A present key reads its initialiser value, or 0 once inserted; a missing key reads 0. The map changes only on a miss. |
| Render.InitialStateMapEntries | src/gRender.cpp:26-28 | GR_FALSE, GR_TRUE and GR_ONE_MINUS_SRC_ALPHA map to their GL counterparts. GR_DEPTH_GEQUAL has no entry. |
| Render.InitialDepthEntries | src/gRender.cpp:19-25 | The seven depth settings map to their comparison functions. |
| Render.DepthMapInjective | src/gRender.cpp:18-29 | The seven depth keys are present and map to pairwise distinct functions. Subscripting GR_DEPTH_GEQUAL reads 0. |
| Render.SetRenderState | src/gRender.cpp:49-113 | A call only logs iff the state has no case. A logging call leaves the map alone. |
| Render.SetRenderStateKeepsReads | src/gRender.cpp:82-107 | No call changes what a later map subscript reads, so every call behaves as on the initial map. |
| Render.BackgroundClearMask | src/gRender.cpp:51-60 | The clear mask holds DEPTH_BUFFER_BIT iff the value has GR_DEPTH_BUFFER, and COLOR_BUFFER_BIT iff it has GR_COLOR_BUFFER. It holds nothing else. |
| Render.CullSelection | src/gRender.cpp:67-74 | Front and back give FRONT_AND_BACK, back alone gives BACK, and anything else gives FRONT (each iff). |
| Render.EnableIffTrue | src/gRender.cpp:61-105 | The five on/off states enable their capability iff the value is exactly GR_TRUE, and disable it otherwise. |
| Render.CapabilitiesDistinct | src/gRender.cpp:61-105 | Exactly the five on/off states have a capability, and those capabilities are distinct. |
| Render.DepthFuncArgument | src/gRender.cpp:85-87 | For every value, DepthFunc receives what the map holds for it, or 0 for a value without an entry. On every map that has not been through Release, each depth setting passes its comparison function, and GR_DEPTH_GEQUAL passes 0. |
| Render.DepthMaskArgument | src/gRender.cpp:81-84 | For every value, DepthMask receives what the map holds for it, depth functions included, or 0 for a value the map lacks. GR_TRUE passes TRUE and GR_FALSE passes FALSE. |
| Render.BlendArgument | src/gRender.cpp:106-109 | For every value, GR_SRC_ALPHA blends SRC_ALPHA with the factor the map holds for the value, or 0 for a value without an entry. GR_ONE_MINUS_SRC_ALPHA gives ONE_MINUS_SRC_ALPHA. |
| Render.UnhandledOnlyLogs | src/gRender.cpp:110-111 | An unhandled state issues no command, keeps the map and logs its name. |
| Render.GetRenderStateName | src/gRender.cpp:115-134 | The name is "undefined" iff the state is not one of the twelve listed. |
| Render.NamesDistinct | src/gRender.cpp:115-134 | The twelve names are pairwise distinct, and none is "undefined". |
| Render.OwnNames | src/gRender.cpp:115-134 | Each listed state gets its own enumerator's name. |

## Left out

- `gShader::build`, `bind`, `unbind` and the destructor: these are shader compilation and linking, program binding and freeing, i.e. native I/O with no decisions beyond GL status checks.
- `getUniform` and `getUniformCount`: these are plain accessors.
- `gTexture::bind`, `unbind`, `Unbind`, `GetCurrent`, `getTextureID`, `set_format` and the destructor: these are texture-unit binding, accessors and a plain assignment.
- The gVertexArray constructor, destructor, `is_valid` and `getID`: these are VAO creation and deletion and accessors. A VAO is modelled by its name alone.
- `SetAttrib`, `SetAttribI`, `SetAttribDivisor` and `SetBufferUpdate`: these forward their arguments to the driver unchanged.
- The `Draw*` calls: each translates its primitive through `primitiveMappings` (modelled by `VertexArray.PrimitiveMapping`) and forwards the other arguments. The draw commands themselves are not in the trace.
- The `SetRenderState(RenderState, void*)` overload: it forwards floating-point colours and viewport sizes, and its default branch logs "Invalid V: " with the state's name.
- `gRender::Initialize` and `m_bufferMap`: GLEW start-up and a table no modelled operation reads.
- `gRender::Release`: it clears `m_bufferMap` and `m_renderStateMap`, then calls `gFramebuffer::Release`, `gRenderbuffer::Release`, `gTexture::Release` and `gVertexArray::Release`. After it every subscript of the render-state map reads 0. The bodies of `gTexture::Release` and `gVertexArray::Release` are left abstract, so what they do to the statics modelled here (`m_bufferIndex`, `s_currentBuffer`, `m_instance`) is unknown. The `Render.StateMap` abstraction, the `VertexArray` buffer index and current-instance model, and every lemma about them, cover only state from before a `Release`.
- gFramebuffer, gRenderbuffer, gl.cpp, gError and shader.cpp: framebuffer and renderbuffer objects, the GL loader, error reporting and the shader-source helper lie outside the modelled core.
- `GL_CALL` error checking: the driver is assumed to succeed.
- Pixel data, uniform byte contents beyond copying, and the data passed to `glBufferData` are not modelled.
- Shader.Registry: the three refusals also call `grr::error`, which writes a message; the message is not modelled, only the refusal's result and the unchanged table.
- Shader.SetUniformById: requires an id inside the table and at least `stride` readable bytes. The code indexes and copies without checking, and anything else is undefined behaviour.
- Shader.Registry: the buffer from `malloc(stride)` is modelled as zero bytes, though its contents are indeterminate. The model assumes the allocation succeeds: the code does not check for a null result, and `malloc(0)` for a zero stride may return either null or a pointer, so a zero-stride slot is modelled as holding an empty buffer. `stride` is unbounded rather than `size_t`.
- Shader.ElementSize: the sizes of the grm `Vector2/3/4` and `Matrix3x3/4x4` types are left abstract as positive constants, since grm's vector and matrix layouts are outside the modelled core.
- Shader.InvalidUniformID is -1: `registry`'s type-error path returns -1 and `cleanUniform` writes -1 where the constructor writes InvalidUniformID. InvalidShaderID, InvalidBufferID and InvalidVertexID are `None`.
- VertexArray.CreateBuffer: `BufferType_` is a `size_t`, so a caller could pass an index past the 5-entry table. The model takes the enumeration only.
- VertexArray.UpdateResizeBuffer: the driver's reports are a finite sequence. When it runs out before a match the method returns `None` instead of looping on.
- Render.DepthMaskArgument: `glDepthMask` takes a `GLboolean`, so the native call receives the mapped value truncated to a byte and read as true or false. A mapped value such as `GL_NEVER` (0x200) truncates to false, and `GL_FALSE` and the 0 default are the same native argument. The model keeps the mapped symbol uninterpreted and does not state either identification.
- Render.Subscript: no modelled operation overwrites the map's initial entries (`Release`, which clears them, is left out above). The map is therefore modelled as those fixed entries plus the set of keys inserted with 0, rather than as a general map.

=== FILE: base.dfy ===
/** Small shared vocabulary: optional values (the C++ null pointer and
    "invalid id" sentinels), fixed-width integers, and the insert-on-miss
    subscript of std::unordered_map. */
module Base {

  datatype Option<+T> = None | Some(value: T)

  /** grm::u32 / GLuint / std::uint32_t */
  type u32 = x: int | 0 <= x < 0x1_0000_0000

  const U32_MAX: u32 := 0xFFFF_FFFF

  /** An unsigned char; uniform payloads are opaque byte sequences. */
  type byte = bv8

  /** std::unordered_map::operator[]: a missing key is first inserted with the
      value-initialised default, and the (possibly grown) map is returned with
      the value found. */
  function Subscript<K, V>(m: map<K, V>, k: K, default: V): (r: (map<K, V>, V))
    ensures k in r.0 && r.0[k] == r.1
    ensures k in m ==> r.0 == m && r.1 == m[k]
    ensures k !in m ==> r.1 == default && r.0.Keys == m.Keys + {k}
    ensures forall j | j in m :: j in r.0 && r.0[j] == m[j]
  {
    if k in m then (m, m[k]) else (m[k := default], default)
  }

  /** The value operator[] reads, without the insertion. */
  function Lookup<K, V>(m: map<K, V>, k: K, default: V): V
  {
    if k in m then m[k] else default
  }

  /** The insertion that operator[] performs on a miss never changes what a
      later subscript reads: every key reads the same before and after. */
  lemma SubscriptPreservesLookups<K, V>(m: map<K, V>, k: K, default: V, j: K)
    ensures Lookup(Subscript(m, k, default).0, j, default) == Lookup(m, j, default)
  {
  }
}

=== FILE: common.dfy ===
/** The shared vocabulary of include/gr-render/gCommon.h: the closed
    enumerations with their numeric values, the texture flag word's bits,
    the cubemap faces, the render-state bits and the invalid-id sentinels. */
module Common {
  import opened Base

  // ***** invalid ids ***** //

  const InvalidRenderbufferID: u32 := U32_MAX
  const InvalidTextureID: u32 := U32_MAX

  /** Both sentinels are the largest u32, so no real handle exceeds them. */
  lemma InvalidIdsAreMaxU32()
    ensures InvalidTextureID == InvalidRenderbufferID
    ensures InvalidTextureID + 1 == 0x1_0000_0000
  {
  }

  // ***** BufferType ***** //

  datatype BufferType = VBO | EBO | FBO | RBO | TBO

  /** The enumerator's value; the index into gVertexArray::bufferMappings. */
  function BufferTypeValue(t: BufferType): (n: nat)
    ensures n < 5
  {
    match t
    case VBO => 0
    case EBO => 1
    case FBO => 2
    case RBO => 3
    case TBO => 4
  }

  function BufferTypeOf(n: nat): Option<BufferType>
  {
    if n == 0 then Some(VBO)
    else if n == 1 then Some(EBO)
    else if n == 2 then Some(FBO)
    else if n == 3 then Some(RBO)
    else if n == 4 then Some(TBO)
    else None
  }

  /** The values are exactly 0..4: each enumerator round-trips through its
      value, and every index of the 5-entry table names an enumerator. */
  lemma BufferTypeContiguous()
    ensures forall t: BufferType :: BufferTypeOf(BufferTypeValue(t)) == Some(t)
    ensures forall n: nat :: BufferTypeOf(n).Some? <==> n < 5
    ensures forall n: nat | n < 5 :: BufferTypeValue(BufferTypeOf(n).value) == n
  {
  }

  // ***** BufferUsage ***** //

  datatype BufferUsage = STATIC | DYNAMIC

  // ***** PrimitiveType ***** //

  datatype PrimitiveType =
    POINTS | LINES | LINE_LOOP | LINE_STRIP | TRIANGLES | TRIANGLES_STRIP | TRIANGLES_FAN

  /** The enumerator's value; the index into gVertexArray::primitiveMappings. */
  function PrimitiveValue(p: PrimitiveType): (n: nat)
    ensures n < 7
  {
    match p
    case POINTS => 0
    case LINES => 1
    case LINE_LOOP => 2
    case LINE_STRIP => 3
    case TRIANGLES => 4
    case TRIANGLES_STRIP => 5
    case TRIANGLES_FAN => 6
  }

  function PrimitiveOf(n: nat): Option<PrimitiveType>
  {
    if n == 0 then Some(POINTS)
    else if n == 1 then Some(LINES)
    else if n == 2 then Some(LINE_LOOP)
    else if n == 3 then Some(LINE_STRIP)
    else if n == 4 then Some(TRIANGLES)
    else if n == 5 then Some(TRIANGLES_STRIP)
    else if n == 6 then Some(TRIANGLES_FAN)
    else None
  }

  /** The values are exactly 0..6, in range for the 7-entry table. */
  lemma PrimitiveTypeContiguous()
    ensures forall p: PrimitiveType :: PrimitiveOf(PrimitiveValue(p)) == Some(p)
    ensures forall n: nat :: PrimitiveOf(n).Some? <==> n < 7
    ensures forall n: nat | n < 7 :: PrimitiveValue(PrimitiveOf(n).value) == n
  {
  }

  // ***** TextureFormat ***** //

  datatype TextureFormat =
    | TextureFormat_RGB | TextureFormat_SRGB | TextureFormat_RGB332 | TextureFormat_RGB444
    | TextureFormat_RGB565 | TextureFormat_RGB888 | TextureFormat_SRGBA | TextureFormat_RGBA
    | TextureFormat_RGBA4444 | TextureFormat_RGBA8888 | TextureFormat_DepthComponent
    | TextureFormat_RED_INTEGER | TextureFormat_RGB16F | TextureFormat_RGB32F
    | TextureFormat_RGBA16F | TextureFormat_RGBA32F | TextureFormat_RED | TextureFormat_RG
    | TextureFormat_RG16F | TextureFormat_RG32F

  /** The enumerator's value; the row of gTexture::TextureFormatInfoMapping. */
  function FormatValue(f: TextureFormat): (n: nat)
    ensures n < 20
  {
    match f
    case TextureFormat_RGB => 0
    case TextureFormat_SRGB => 1
    case TextureFormat_RGB332 => 2
    case TextureFormat_RGB444 => 3
    case TextureFormat_RGB565 => 4
    case TextureFormat_RGB888 => 5
    case TextureFormat_SRGBA => 6
    case TextureFormat_RGBA => 7
    case TextureFormat_RGBA4444 => 8
    case TextureFormat_RGBA8888 => 9
    case TextureFormat_DepthComponent => 10
    case TextureFormat_RED_INTEGER => 11
    case TextureFormat_RGB16F => 12
    case TextureFormat_RGB32F => 13
    case TextureFormat_RGBA16F => 14
    case TextureFormat_RGBA32F => 15
    case TextureFormat_RED => 16
    case TextureFormat_RG => 17
    case TextureFormat_RG16F => 18
    case TextureFormat_RG32F => 19
  }

  /** Every enumerator in declaration order. */
  const AllFormats: seq<TextureFormat> := [
    TextureFormat_RGB, TextureFormat_SRGB, TextureFormat_RGB332, TextureFormat_RGB444,
    TextureFormat_RGB565, TextureFormat_RGB888, TextureFormat_SRGBA, TextureFormat_RGBA,
    TextureFormat_RGBA4444, TextureFormat_RGBA8888, TextureFormat_DepthComponent,
    TextureFormat_RED_INTEGER, TextureFormat_RGB16F, TextureFormat_RGB32F,
    TextureFormat_RGBA16F, TextureFormat_RGBA32F, TextureFormat_RED, TextureFormat_RG,
    TextureFormat_RG16F, TextureFormat_RG32F
  ]

  /** The values are exactly 0..19: the value of the n-th declared enumerator
      is n, so the values are pairwise distinct and fill the 20-entry table. */
  lemma TextureFormatContiguous()
    ensures |AllFormats| == 20
    ensures forall n | 0 <= n < 20 :: FormatValue(AllFormats[n]) == n
    ensures forall f: TextureFormat :: f in AllFormats
    ensures forall f, g: TextureFormat :: FormatValue(f) == FormatValue(g) ==> f == g
  {
    forall f: TextureFormat ensures f in AllFormats {
      assert AllFormats[FormatValue(f)] == f;
    }
  }

  // ***** gTextureFlags ***** //

  type Flags = bv32

  const FlagNone: Flags := 1 << 0
  const FlagMipMaps: Flags := 1 << 1
  const FlagTexture: Flags := 1 << 2
  const FlagCubemap: Flags := 1 << 3
  const FlagFilterLinear: Flags := 1 << 4
  const FlagFilterNearest: Flags := 1 << 5
  const FlagFilterTrilinear: Flags := 1 << 6
  const FlagFilterBilinear: Flags := 1 << 7
  const FlagCubemapPositiveX: Flags := 1 << 8
  const FlagCubemapNegativeX: Flags := 1 << 9
  const FlagCubemapPositiveY: Flags := 1 << 10
  const FlagCubemapNegativeY: Flags := 1 << 11
  const FlagCubemapPositiveZ: Flags := 1 << 12
  const FlagCubemapNegativeZ: Flags := 1 << 13
  const FlagClampRepeat: Flags := 1 << 14
  const FlagClampBorder: Flags := 1 << 15
  const FlagClampEdge: Flags := 1 << 16

  /** The enumerators in declaration order. */
  const TextureFlagBits: seq<Flags> := [
    FlagNone, FlagMipMaps, FlagTexture, FlagCubemap,
    FlagFilterLinear, FlagFilterNearest, FlagFilterTrilinear, FlagFilterBilinear,
    FlagCubemapPositiveX, FlagCubemapNegativeX, FlagCubemapPositiveY,
    FlagCubemapNegativeY, FlagCubemapPositiveZ, FlagCubemapNegativeZ,
    FlagClampRepeat, FlagClampBorder, FlagClampEdge
  ]

  /** The groups that the setters clear before OR-ing in their argument. */
  const FilterMask: Flags :=
    FlagFilterLinear | FlagFilterNearest | FlagFilterTrilinear | FlagFilterBilinear
  const ClampMask: Flags := FlagClampRepeat | FlagClampBorder | FlagClampEdge
  const KindMask: Flags := FlagTexture | FlagCubemap

  predicate IsSingleBit(x: Flags)
  {
    x != 0 && x & (x - 1) == 0
  }

  predicate Has(flags: Flags, bit: Flags)
  {
    flags & bit != 0
  }

  /** Two different powers of two share no bit. */
  lemma DistinctShiftsDisjoint(i: nat, j: nat)
    requires i < 32 && j < 32 && i != j
    ensures ((1 as bv32) << i) & ((1 as bv32) << j) == 0
  {
  }

  lemma ShiftIsSingleBit(i: nat)
    requires i < 32
    ensures IsSingleBit((1 as bv32) << i)
  {
  }

  /** The n-th declared gTextureFlags enumerator is 1 << n. */
  lemma TextureFlagPositions()
    ensures |TextureFlagBits| == 17
    ensures forall n | 0 <= n < 17 :: TextureFlagBits[n] == (1 as bv32) << n
  {
  }

  /** Every gTextureFlags enumerator is a single bit, the n-th one is 1 << n,
      and no two of them overlap. */
  lemma TextureFlagsAreDistinctBits()
    ensures |TextureFlagBits| == 17
    ensures forall n | 0 <= n < 17 :: TextureFlagBits[n] == (1 as bv32) << n
    ensures forall n | 0 <= n < 17 :: IsSingleBit(TextureFlagBits[n])
    ensures forall m, n | 0 <= m < n < 17 :: TextureFlagBits[m] & TextureFlagBits[n] == 0
  {
    TextureFlagPositions();
    forall n | 0 <= n < 17 ensures IsSingleBit(TextureFlagBits[n]) {
      ShiftIsSingleBit(n);
    }
    forall m, n | 0 <= m < n < 17
      ensures TextureFlagBits[m] & TextureFlagBits[n] == 0
    {
      DistinctShiftsDisjoint(m, n);
    }
  }

  // ***** gTextureCubemapFace ***** //

  datatype CubemapFace = Front | Back | Top | Bottom | Left | Right

  /** The faces in the order gTexture::updateBuffer tests them:
      +X, -X, +Y, -Y, +Z, -Z. */
  function FaceRank(f: CubemapFace): (n: nat)
    ensures n < 6
  {
    match f
    case Front => 0
    case Back => 1
    case Top => 2
    case Bottom => 3
    case Left => 4
    case Right => 5
  }

  /** The gTextureCubemapFace value of a named face. */
  function FaceFlag(f: CubemapFace): (bit: Flags)
  {
    match f
    case Front => FlagCubemapPositiveX
    case Back => FlagCubemapNegativeX
    case Top => FlagCubemapPositiveY
    case Bottom => FlagCubemapNegativeY
    case Left => FlagCubemapPositiveZ
    case Right => FlagCubemapNegativeZ
  }

  const FaceAll: Flags :=
    FlagCubemapPositiveX | FlagCubemapNegativeX | FlagCubemapPositiveY
    | FlagCubemapNegativeY | FlagCubemapPositiveZ | FlagCubemapNegativeZ

  /** Each named face is exactly one Cubemap_* flag (bit 8 + its rank), and
      the faces are pairwise different bits. */
  lemma CubemapFacesAreFaceFlags()
    ensures forall f :: FaceFlag(f) == TextureFlagBits[8 + FaceRank(f)]
    ensures forall f :: IsSingleBit(FaceFlag(f))
    ensures forall f, g :: f != g ==> FaceFlag(f) & FaceFlag(g) == 0
  {
    TextureFlagsAreDistinctBits();
    forall f, g | f != g ensures FaceFlag(f) & FaceFlag(g) == 0 {
      DistinctShiftsDisjoint(8 + FaceRank(f), 8 + FaceRank(g));
    }
  }

  /** FaceAll is the OR of the six face bits, holds every face, and holds no
      other gTextureFlags bit. */
  lemma FaceAllIsTheSixFaces()
    ensures FaceAll == FaceFlag(Front) | FaceFlag(Back) | FaceFlag(Top)
                       | FaceFlag(Bottom) | FaceFlag(Left) | FaceFlag(Right)
    ensures forall f :: FaceFlag(f) & FaceAll == FaceFlag(f)
    ensures forall n | 0 <= n < 17 :: TextureFlagBits[n] & FaceAll != 0 <==> 8 <= n < 14
  {
    TextureFlagPositions();
  }

  // ***** RenderState ***** //

  /** grr::RenderState has std::uint64_t as its underlying type. */
  type RenderState = bv64

  const GR_FALSE: RenderState := 1 << 1
  const GR_TRUE: RenderState := 1 << 2
  const GR_BACKGROUND_COLOR: RenderState := 1 << 3
  const GR_BACKGROUND: RenderState := 1 << 4
  const GR_DEPTH_BUFFER: RenderState := 1 << 5
  const GR_COLOR_BUFFER: RenderState := 1 << 6
  const GR_CULL_FACE: RenderState := 1 << 7
  const GR_CULL: RenderState := 1 << 8
  const GR_FRONT: RenderState := 1 << 9
  const GR_BACK: RenderState := 1 << 10
  const GR_VIEWPORT: RenderState := 1 << 11
  const GR_DEPTH: RenderState := 1 << 12
  const GR_DEPTH_MASK: RenderState := 1 << 13
  const GR_DEPTH_FUNC: RenderState := 1 << 14
  const GR_DEPTH_ALWAYS: RenderState := 1 << 15
  const GR_DEPTH_NEVER: RenderState := 1 << 16
  const GR_DEPTH_LESS: RenderState := 1 << 17
  const GR_DEPTH_EQUAL: RenderState := 1 << 18
  const GR_DEPTH_LEQUAL: RenderState := 1 << 19
  const GR_DEPTH_GREATER: RenderState := 1 << 20
  const GR_DEPTH_NOTEQUAL: RenderState := 1 << 21
  const GR_DEPTH_GEQUAL: RenderState := 1 << 22
  const GR_MULTISAMPLE: RenderState := 1 << 23
  const GR_FRAMEBUFFER_SRGB: RenderState := 1 << 24
  const GR_BLEND: RenderState := 1 << 25
  const GR_SRC_ALPHA: RenderState := 1 << 26
  const GR_ONE_MINUS_SRC_ALPHA: RenderState := 1 << 27

  /** The enumerators in declaration order. */
  const RenderStates: seq<RenderState> := [
    GR_FALSE, GR_TRUE, GR_BACKGROUND_COLOR, GR_BACKGROUND, GR_DEPTH_BUFFER,
    GR_COLOR_BUFFER, GR_CULL_FACE, GR_CULL, GR_FRONT, GR_BACK, GR_VIEWPORT,
    GR_DEPTH, GR_DEPTH_MASK, GR_DEPTH_FUNC, GR_DEPTH_ALWAYS, GR_DEPTH_NEVER,
    GR_DEPTH_LESS, GR_DEPTH_EQUAL, GR_DEPTH_LEQUAL, GR_DEPTH_GREATER,
    GR_DEPTH_NOTEQUAL, GR_DEPTH_GEQUAL, GR_MULTISAMPLE, GR_FRAMEBUFFER_SRGB,
    GR_BLEND, GR_SRC_ALPHA, GR_ONE_MINUS_SRC_ALPHA
  ]

  predicate IsSingleBit64(x: RenderState)
  {
    x != 0 && x & (x - 1) == 0
  }

  lemma DistinctShiftsDisjoint64(i: nat, j: nat)
    requires i < 32 && j < 32 && i != j
    ensures ((1 as bv64) << i) & ((1 as bv64) << j) == 0
  {
  }

  lemma ShiftIsSingleBit64(i: nat)
    requires i < 32
    ensures IsSingleBit64((1 as bv64) << i)
  {
  }

  /** The enumerators' numeric values, as literals. */
  lemma RenderStateValues()
    ensures GR_FALSE == 0x2
    ensures GR_TRUE == 0x4
    ensures GR_BACKGROUND_COLOR == 0x8
    ensures GR_BACKGROUND == 0x10
    ensures GR_DEPTH_BUFFER == 0x20
    ensures GR_COLOR_BUFFER == 0x40
    ensures GR_CULL_FACE == 0x80
    ensures GR_CULL == 0x100
    ensures GR_FRONT == 0x200
    ensures GR_BACK == 0x400
    ensures GR_VIEWPORT == 0x800
    ensures GR_DEPTH == 0x1000
    ensures GR_DEPTH_MASK == 0x2000
    ensures GR_DEPTH_FUNC == 0x4000
    ensures GR_DEPTH_ALWAYS == 0x8000
    ensures GR_DEPTH_NEVER == 0x10000
    ensures GR_DEPTH_LESS == 0x20000
    ensures GR_DEPTH_EQUAL == 0x40000
    ensures GR_DEPTH_LEQUAL == 0x80000
    ensures GR_DEPTH_GREATER == 0x100000
    ensures GR_DEPTH_NOTEQUAL == 0x200000
    ensures GR_DEPTH_GEQUAL == 0x400000
    ensures GR_MULTISAMPLE == 0x800000
    ensures GR_FRAMEBUFFER_SRGB == 0x1000000
    ensures GR_BLEND == 0x2000000
    ensures GR_SRC_ALPHA == 0x4000000
    ensures GR_ONE_MINUS_SRC_ALPHA == 0x8000000
  {
  }

  /** The n-th declared RenderState enumerator is 1 << (n + 1). */
  lemma RenderStatePositions()
    ensures |RenderStates| == 27
    ensures forall n | 0 <= n < 27 :: RenderStates[n] == (1 as bv64) << (n + 1)
  {
    forall n | 0 <= n < 27 ensures RenderStates[n] == (1 as bv64) << (n + 1) {
      // three groups of nine enumerators, each a cheaper case analysis
      if n < 9 {
      } else if n < 18 {
      } else {
      }
    }
  }

  /** Every RenderState enumerator is a single bit, the n-th one is
      1 << (n + 1), all of them fit a u32, and no two overlap. */
  lemma RenderStatesAreDistinctBits()
    ensures |RenderStates| == 27
    ensures forall n | 0 <= n < 27 :: RenderStates[n] == (1 as bv64) << (n + 1)
    ensures forall n | 0 <= n < 27 :: IsSingleBit64(RenderStates[n])
    ensures forall n | 0 <= n < 27 :: RenderStates[n] < 0x1_0000_0000
    ensures forall m, n | 0 <= m < n < 27 :: RenderStates[m] & RenderStates[n] == 0
  {
    RenderStatePositions();
    forall n | 0 <= n < 27 ensures IsSingleBit64(RenderStates[n]) {
      ShiftIsSingleBit64(n + 1);
    }
    forall m, n | 0 <= m < n < 27
      ensures RenderStates[m] & RenderStates[n] == 0
    {
      DistinctShiftsDisjoint64(m + 1, n + 1);
    }
  }
}

=== FILE: gl.dfy ===
/** The native graphics API as seen by the wrapper: every GL_* constant the
    core passes to the driver is a symbolic value (the numeric values of the
    GL headers play no part in any decision the wrapper makes), and every
    native call the core issues is an entry of a command trace. */
module Gl {
  import opened Base

  datatype GLenum =
    // the value-initialised default that std::unordered_map::operator[] and
    // a zero-filled variable yield; numerically GL_NONE / GL_ZERO
    | ZERO
    // texture targets
    | TEXTURE_2D | TEXTURE_CUBE_MAP
    | TEXTURE_CUBE_MAP_POSITIVE_X | TEXTURE_CUBE_MAP_NEGATIVE_X
    | TEXTURE_CUBE_MAP_POSITIVE_Y | TEXTURE_CUBE_MAP_NEGATIVE_Y
    | TEXTURE_CUBE_MAP_POSITIVE_Z | TEXTURE_CUBE_MAP_NEGATIVE_Z
    // sampler parameters and their values
    | TEXTURE_WRAP_S | TEXTURE_WRAP_R | TEXTURE_WRAP_T
    | TEXTURE_MIN_FILTER | TEXTURE_MAG_FILTER
    | REPEAT | CLAMP_TO_EDGE | CLAMP_TO_BORDER
    | LINEAR | NEAREST | LINEAR_MIPMAP_LINEAR | LINEAR_MIPMAP_NEAREST
    // internal and pixel formats
    | RGB | SRGB | RGB4 | RGB8 | SRGB_ALPHA | RGBA | RGBA4 | RGBA8
    | DEPTH_COMPONENT | R32I | RED_INTEGER | RGB16F | RGB32F | RGBA16F | RGBA32F
    | RED | RG | RG16F | RG32F
    // pixel types
    | UNSIGNED_BYTE | UNSIGNED_BYTE_3_3_2 | UNSIGNED_SHORT_4_4_4_4 | UNSIGNED_SHORT_5_6_5
    | FLOAT | INT
    // buffer binding targets
    | ARRAY_BUFFER | ELEMENT_ARRAY_BUFFER | FRAMEBUFFER | RENDERBUFFER | TEXTURE_BUFFER
    // primitives
    | POINTS | LINES | LINE_LOOP | LINE_STRIP | TRIANGLES | TRIANGLE_STRIP | TRIANGLE_FAN
    // buffer usage
    | STATIC_DRAW | DYNAMIC_DRAW
    // render state
    | DEPTH_BUFFER_BIT | COLOR_BUFFER_BIT
    | CULL_FACE | DEPTH_TEST | MULTISAMPLE | FRAMEBUFFER_SRGB | BLEND
    | FRONT | BACK | FRONT_AND_BACK
    | ALWAYS | NEVER | LESS | EQUAL | LEQUAL | GREATER | NOTEQUAL
    | FALSE | TRUE
    | SRC_ALPHA | ONE_MINUS_SRC_ALPHA

  /** The shape of a glUniform* upload: glUniform1iv, glUniform1fv,
      glUniform2fv, glUniform3fv, glUniform4fv, glUniformMatrix3fv and
      glUniformMatrix4fv. */
  datatype UploadKind = Int1 | Float1 | Float2 | Float3 | Float4 | Matrix3 | Matrix4

  /** One native call, recorded in the order the wrapper issues it. Object
      names are the driver's GLuint handles; `0` unbinds. */
  datatype Cmd =
    | GenTextures(generated: u32)
    | BindTexture(target: GLenum, texture: u32)
    | TexImage2D(target: GLenum, internalFormat: GLenum, width: u32, height: u32,
                 format: GLenum, pixelType: GLenum)
    | GenerateMipmap(target: GLenum)
    | TexParameteri(target: GLenum, pname: GLenum, param: GLenum)
    | GenBuffers(generated: u32)
    | BindBuffer(target: GLenum, buffer: u32)
    | BufferData(target: GLenum, size: nat, usage: GLenum)
    | GetBufferSize(target: GLenum, reported: int)
    | DeleteBuffers(buffer: u32)
    | BindVertexArray(vao: u32)
    | UniformUpload(kind: UploadKind, location: int, count: nat, data: seq<byte>)
    | Clear(mask: set<GLenum>)
    | Enable(cap: GLenum)
    | Disable(cap: GLenum)
    | CullFace(mode: GLenum)
    | DepthMask(flag: GLenum)
    | DepthFunc(func: GLenum)
    | BlendFunc(sfactor: GLenum, dfactor: GLenum)
}

=== FILE: render.dfy ===
/** gRender (src/gRender.cpp): the translation of an integer render-state
    setting into one native call, through the static m_renderStateMap, and
    the enumerator names used in its diagnostics. */
module Render {
  import opened Base
  import opened Common
  import Gl

  /** The `grm::u32 value` argument, widened to the 64-bit width of
      RenderState in which every comparison and mask is evaluated. */
  type Word = x: bv64 | x < 0x1_0000_0000

  /** The initialiser list of gRender::m_renderStateMap: the seven depth
      functions (GR_DEPTH_GEQUAL has no entry), the two booleans and the
      blend factor. */
  function InitialEntry(key: RenderState): Option<Gl.GLenum>
  {
    if key == GR_DEPTH_ALWAYS then Some(Gl.ALWAYS)
    else if key == GR_DEPTH_NEVER then Some(Gl.NEVER)
    else if key == GR_DEPTH_LESS then Some(Gl.LESS)
    else if key == GR_DEPTH_EQUAL then Some(Gl.EQUAL)
    else if key == GR_DEPTH_LEQUAL then Some(Gl.LEQUAL)
    else if key == GR_DEPTH_GREATER then Some(Gl.GREATER)
    else if key == GR_DEPTH_NOTEQUAL then Some(Gl.NOTEQUAL)
    else if key == GR_FALSE then Some(Gl.FALSE)
    else if key == GR_TRUE then Some(Gl.TRUE)
    else if key == GR_ONE_MINUS_SRC_ALPHA then Some(Gl.ONE_MINUS_SRC_ALPHA)
    else None
  }

  /** gRender::m_renderStateMap before any gRender::Release: the entries of
      its initialiser, which no modelled operation overwrites, plus the keys
      that operator[] has inserted with the value-initialised default 0.
      Release, which clears the map, is not modelled. */
  datatype StateMap = StateMap(defaulted: set<RenderState>)

  /** The map as initialised. */
  const InitialStateMap: StateMap := StateMap({})

  predicate Contains(m: StateMap, key: RenderState)
  {
    InitialEntry(key).Some? || key in m.defaulted
  }

  /** What operator[] reads for a key that is present: the initialiser's
      value, or 0 for an inserted key. */
  function Find(m: StateMap, key: RenderState): Gl.GLenum
  {
    if InitialEntry(key).Some? then InitialEntry(key).value else Gl.ZERO
  }

  /** m_renderStateMap[key]: a missing key is first inserted with 0; a
      present key reads its initialiser value, or 0 once inserted. */
  function Subscript(m: StateMap, key: RenderState): (r: (StateMap, Gl.GLenum))
    ensures Contains(r.0, key)
    ensures forall k :: Contains(r.0, k) <==> Contains(m, k) || k == key
    ensures !Contains(m, key) ==> r.1 == Gl.ZERO
    ensures r.1 == if InitialEntry(key).Some? then InitialEntry(key).value else Gl.ZERO
    ensures Contains(m, key) ==> r.0 == m
  {
    if Contains(m, key) then (m, Find(m, key))
    else (StateMap(m.defaulted + {key}), Gl.ZERO)
  }

  /** Every entry of the initialiser is present from the start, with the
      listed values; GR_DEPTH_GEQUAL is not among them. */
  lemma InitialStateMapEntries()
    ensures Subscript(InitialStateMap, GR_FALSE).1 == Gl.FALSE
    ensures Subscript(InitialStateMap, GR_TRUE).1 == Gl.TRUE
    ensures Subscript(InitialStateMap, GR_ONE_MINUS_SRC_ALPHA).1 == Gl.ONE_MINUS_SRC_ALPHA
    ensures !Contains(InitialStateMap, GR_DEPTH_GEQUAL)
  {
    RenderStateValues();
  }

  /** The seven depth entries of the initialiser. */
  lemma InitialDepthEntries()
    ensures Subscript(InitialStateMap, GR_DEPTH_ALWAYS).1 == Gl.ALWAYS
    ensures Subscript(InitialStateMap, GR_DEPTH_NEVER).1 == Gl.NEVER
    ensures Subscript(InitialStateMap, GR_DEPTH_LESS).1 == Gl.LESS
    ensures Subscript(InitialStateMap, GR_DEPTH_EQUAL).1 == Gl.EQUAL
    ensures Subscript(InitialStateMap, GR_DEPTH_LEQUAL).1 == Gl.LEQUAL
    ensures Subscript(InitialStateMap, GR_DEPTH_GREATER).1 == Gl.GREATER
    ensures Subscript(InitialStateMap, GR_DEPTH_NOTEQUAL).1 == Gl.NOTEQUAL
  {
    RenderStateValues();
  }

  /** The depth-function keys of the initialiser. */
  const DepthKeys: seq<RenderState> := [
    GR_DEPTH_ALWAYS, GR_DEPTH_NEVER, GR_DEPTH_LESS, GR_DEPTH_EQUAL,
    GR_DEPTH_LEQUAL, GR_DEPTH_GREATER, GR_DEPTH_NOTEQUAL
  ]

  /** Distinct depth settings select distinct comparison functions, and
      GR_DEPTH_GEQUAL has no entry, so subscripting it inserts and reads
      the default 0. */
  lemma DepthMapInjective()
    ensures forall i | 0 <= i < |DepthKeys| :: Contains(InitialStateMap, DepthKeys[i])
    ensures forall i, j | 0 <= i < j < |DepthKeys| ::
              Find(InitialStateMap, DepthKeys[i]) != Find(InitialStateMap, DepthKeys[j])
    ensures Subscript(InitialStateMap, GR_DEPTH_GEQUAL).1 == Gl.ZERO
  {
    RenderStateValues();
  }

  /** What one call does: issue one native command, or only write a line
      to standard output. */
  datatype Effect = Issue(cmd: Gl.Cmd) | Log(message: string)

  /** The states the u32 overload has a case for. */
  predicate Handled(state: RenderState)
  {
    state == GR_BACKGROUND || state == GR_CULL || state == GR_DEPTH_MASK
    || state == GR_DEPTH_FUNC || state == GR_SRC_ALPHA || IsSwitch(state)
  }

  /** The on/off states. */
  predicate IsSwitch(state: RenderState)
  {
    state == GR_CULL_FACE || state == GR_DEPTH || state == GR_MULTISAMPLE
    || state == GR_FRAMEBUFFER_SRGB || state == GR_BLEND
  }

  /** The on/off states and the capability each one switches. */
  function CapabilityOf(state: RenderState): Option<Gl.GLenum>
  {
    if state == GR_CULL_FACE then Some(Gl.CULL_FACE)
    else if state == GR_DEPTH then Some(Gl.DEPTH_TEST)
    else if state == GR_MULTISAMPLE then Some(Gl.MULTISAMPLE)
    else if state == GR_FRAMEBUFFER_SRGB then Some(Gl.FRAMEBUFFER_SRGB)
    else if state == GR_BLEND then Some(Gl.BLEND)
    else None
  }

  /** `(value & bit) == bit` for a single-bit enumerator. */
  predicate HasBit(value: Word, bit: RenderState)
  {
    value & bit == bit
  }

  /** The glClear mask of GR_BACKGROUND. */
  function ClearMask(value: Word): set<Gl.GLenum>
  {
    (if HasBit(value, GR_DEPTH_BUFFER) then {Gl.DEPTH_BUFFER_BIT} else {})
    + (if HasBit(value, GR_COLOR_BUFFER) then {Gl.COLOR_BUFFER_BIT} else {})
  }

  /** The glCullFace mode of GR_CULL. */
  function CullMode(value: Word): Gl.GLenum
  {
    if HasBit(value, GR_FRONT) && HasBit(value, GR_BACK) then Gl.FRONT_AND_BACK
    else if HasBit(value, GR_BACK) then Gl.BACK
    else Gl.FRONT
  }

  /** gRender::SetRenderState(RenderState, u32). `stateMap` is the current
      m_renderStateMap: its subscript inserts value -> 0 on a miss, and the
      grown map is returned with the effect. */
  function SetRenderState(stateMap: StateMap, state: RenderState, value: Word)
    : (r: (StateMap, Effect))
    ensures r.1.Log? <==> !Handled(state)
    ensures r.1.Log? ==> r.0 == stateMap
  {
    if state == GR_BACKGROUND then
      (stateMap, Issue(Gl.Clear(ClearMask(value))))
    else if state == GR_CULL then
      (stateMap, Issue(Gl.CullFace(CullMode(value))))
    else if state == GR_DEPTH_MASK then
      var (m, v) := Subscript(stateMap, value);
      (m, Issue(Gl.DepthMask(v)))
    else if state == GR_DEPTH_FUNC then
      var (m, v) := Subscript(stateMap, value);
      (m, Issue(Gl.DepthFunc(v)))
    else if state == GR_SRC_ALPHA then
      var (m, v) := Subscript(stateMap, value);
      (m, Issue(Gl.BlendFunc(Gl.SRC_ALPHA, v)))
    else if CapabilityOf(state).Some? then
      var cap := CapabilityOf(state).value;
      (stateMap, Issue(if value == GR_TRUE then Gl.Enable(cap) else Gl.Disable(cap)))
    else
      (stateMap, Log("Invalid Va: " + GetRenderStateName(state)))
  }

  /** The insertions SetRenderState makes never change what a later
      subscript reads, so every call behaves as on the initial map. */
  lemma SetRenderStateKeepsReads(stateMap: StateMap, state: RenderState, value: Word, key: RenderState)
    ensures Subscript(SetRenderState(stateMap, state, value).0, key).1 == Subscript(stateMap, key).1
  {
  }

  /** GR_BACKGROUND clears the depth buffer exactly when the value carries
      GR_DEPTH_BUFFER, the colour buffer exactly when it carries
      GR_COLOR_BUFFER, and nothing else. */
  lemma BackgroundClearMask(stateMap: StateMap, value: Word)
    ensures var e := SetRenderState(stateMap, GR_BACKGROUND, value).1;
            e.Issue? && e.cmd.Clear?
            && (Gl.DEPTH_BUFFER_BIT in e.cmd.mask <==> value & GR_DEPTH_BUFFER != 0)
            && (Gl.COLOR_BUFFER_BIT in e.cmd.mask <==> value & GR_COLOR_BUFFER != 0)
            && e.cmd.mask <= {Gl.DEPTH_BUFFER_BIT, Gl.COLOR_BUFFER_BIT}
  {
    SingleBitTest(value, 5);
    SingleBitTest(value, 6);
  }

  /** For a single bit, `(value & bit) == bit` is `(value & bit) != 0`. */
  lemma SingleBitTest(value: Word, n: nat)
    requires n < 64
    ensures value & ((1 as bv64) << n) == (1 as bv64) << n <==> value & ((1 as bv64) << n) != 0
  {
  }

  /** GR_CULL culls both faces when the value carries GR_FRONT and GR_BACK,
      the back face when it carries only GR_BACK, and the front face
      otherwise, also when it carries neither. */
  lemma CullSelection(stateMap: StateMap, value: Word)
    ensures var e := SetRenderState(stateMap, GR_CULL, value).1;
            var front := value & GR_FRONT != 0;
            var back := value & GR_BACK != 0;
            e.Issue? && e.cmd.CullFace?
            && (e.cmd.mode == Gl.FRONT_AND_BACK <==> front && back)
            && (e.cmd.mode == Gl.BACK <==> !front && back)
            && (e.cmd.mode == Gl.FRONT <==> !back)
  {
    SingleBitTest(value, 9);
    SingleBitTest(value, 10);
  }

  /** The five on/off states enable their capability exactly when the value
      is GR_TRUE itself; any other value, GR_TRUE combined with other bits
      included, disables it. */
  lemma EnableIffTrue(stateMap: StateMap, state: RenderState, value: Word)
    requires IsSwitch(state)
    ensures var e := SetRenderState(stateMap, state, value).1;
            e.Issue? && (e.cmd.Enable? || e.cmd.Disable?)
            && (e.cmd.Enable? <==> value == GR_TRUE)
            && e.cmd.cap == CapabilityOf(state).value
  {
  }

  /** The capability table names a distinct capability for each of the five
      on/off states and none for any other state. */
  lemma CapabilitiesDistinct()
    ensures forall s :: CapabilityOf(s).Some? <==> IsSwitch(s)
    ensures CapabilityOf(GR_CULL_FACE) == Some(Gl.CULL_FACE)
    ensures CapabilityOf(GR_DEPTH) == Some(Gl.DEPTH_TEST)
    ensures forall s, t | CapabilityOf(s).Some? && CapabilityOf(s) == CapabilityOf(t) :: s == t
  {
  }

  /** GR_DEPTH_FUNC passes whatever the map holds for the value, 0 for a
      value without an entry: the comparison function of each of the seven
      depth settings and 0 for GR_DEPTH_GEQUAL, on every map that has not
      been through a Release, since reads never change. */
  lemma DepthFuncArgument(stateMap: StateMap, i: nat, value: Word)
    requires i < |DepthKeys|
    ensures SetRenderState(stateMap, GR_DEPTH_FUNC, value).1
            == Issue(Gl.DepthFunc(if InitialEntry(value).Some? then InitialEntry(value).value else Gl.ZERO))
    ensures SetRenderState(stateMap, GR_DEPTH_FUNC, DepthKeys[i]).1
            == Issue(Gl.DepthFunc(Find(InitialStateMap, DepthKeys[i])))
    ensures SetRenderState(stateMap, GR_DEPTH_FUNC, GR_DEPTH_GEQUAL).1 == Issue(Gl.DepthFunc(Gl.ZERO))
  {
    RenderStateValues();
  }

  /** GR_DEPTH_MASK passes whatever the map holds for the value, depth
      functions included: GL_TRUE and GL_FALSE for GR_TRUE and GR_FALSE,
      and 0 for a value without an entry. */
  lemma DepthMaskArgument(stateMap: StateMap, other: Word)
    ensures SetRenderState(stateMap, GR_DEPTH_MASK, other).1
            == Issue(Gl.DepthMask(if InitialEntry(other).Some? then InitialEntry(other).value else Gl.ZERO))
    ensures SetRenderState(stateMap, GR_DEPTH_MASK, GR_TRUE).1 == Issue(Gl.DepthMask(Gl.TRUE))
    ensures SetRenderState(stateMap, GR_DEPTH_MASK, GR_FALSE).1 == Issue(Gl.DepthMask(Gl.FALSE))
    ensures !Contains(InitialStateMap, other) ==>
              SetRenderState(stateMap, GR_DEPTH_MASK, other).1 == Issue(Gl.DepthMask(Gl.ZERO))
  {
    RenderStateValues();
  }

  /** GR_SRC_ALPHA blends with the source alpha and the factor the map
      holds for the value (0 for a value without an entry); for
      GR_ONE_MINUS_SRC_ALPHA that is GL_ONE_MINUS_SRC_ALPHA. */
  lemma BlendArgument(stateMap: StateMap, value: Word)
    ensures SetRenderState(stateMap, GR_SRC_ALPHA, value).1
            == Issue(Gl.BlendFunc(Gl.SRC_ALPHA, if InitialEntry(value).Some? then InitialEntry(value).value else Gl.ZERO))
    ensures SetRenderState(stateMap, GR_SRC_ALPHA, GR_ONE_MINUS_SRC_ALPHA).1
            == Issue(Gl.BlendFunc(Gl.SRC_ALPHA, Gl.ONE_MINUS_SRC_ALPHA))
  {
    RenderStateValues();
  }

  /** An unhandled state, GR_BACKGROUND_COLOR and GR_VIEWPORT among them,
      issues no command, leaves the map alone and logs its name. */
  lemma UnhandledOnlyLogs(stateMap: StateMap, state: RenderState, value: Word)
    requires !Handled(state)
    ensures SetRenderState(stateMap, state, value)
            == (stateMap, Log("Invalid Va: " + GetRenderStateName(state)))
  {
  }

  /** The states that have a name of their own in getRenderStateName, in
      the order of its switch. */
  const NamedStates: seq<(RenderState, string)> := [
    (GR_FALSE, "GR_FALSE"),
    (GR_TRUE, "GR_TRUE"),
    (GR_BACKGROUND_COLOR, "GR_BACKGROUND_COLOR"),
    (GR_BACKGROUND, "GR_BACKGROUND"),
    (GR_DEPTH_BUFFER, "GR_DEPTH_BUFFER"),
    (GR_COLOR_BUFFER, "GR_COLOR_BUFFER"),
    (GR_CULL_FACE, "GR_CULL_FACE"),
    (GR_CULL, "GR_CULL"),
    (GR_FRONT, "GR_FRONT"),
    (GR_BACK, "GR_BACK"),
    (GR_DEPTH, "GR_DEPTH"),
    (GR_VIEWPORT, "GR_VIEWPORT")
  ]

  /** gRender::getRenderStateName: the first matching name, or
      "undefined". */
  function GetRenderStateName(state: RenderState): (name: string)
    ensures name == "undefined" <==> forall i | 0 <= i < |NamedStates| :: NamedStates[i].0 != state
  {
    NameFrom(state, 0)
  }

  function NameFrom(state: RenderState, i: nat): (name: string)
    requires i <= |NamedStates|
    ensures name == "undefined" <==> forall j | i <= j < |NamedStates| :: NamedStates[j].0 != state
    ensures name != "undefined" ==> exists j | i <= j < |NamedStates| :: NamedStates[j] == (state, name)
    decreases |NamedStates| - i
  {
    if i == |NamedStates| then "undefined"
    else if NamedStates[i].0 == state then NamedStates[i].1
    else NameFrom(state, i + 1)
  }

  /** The listed names are pairwise distinct and none is "undefined", so
      the name identifies the state. */
  lemma NamesDistinct()
    ensures forall i, j | 0 <= i < j < |NamedStates| :: NamedStates[i].1 != NamedStates[j].1
    ensures forall i | 0 <= i < |NamedStates| :: NamedStates[i].1 != "undefined"
  {
  }

  /** Each of the twelve listed states gets its own enumerator name. */
  lemma OwnNames()
    ensures forall i | 0 <= i < |NamedStates| :: GetRenderStateName(NamedStates[i].0) == NamedStates[i].1
  {
    forall i | 0 <= i < |NamedStates|
      ensures GetRenderStateName(NamedStates[i].0) == NamedStates[i].1
    {
      NameOfListed(i);
    }
  }

  lemma NameOfListed(i: nat)
    requires i < |NamedStates|
    ensures GetRenderStateName(NamedStates[i].0) == NamedStates[i].1
  {
    NamedKeysDistinct();
    var name := GetRenderStateName(NamedStates[i].0);
    assert name != "undefined";
    var j :| 0 <= j < |NamedStates| && NamedStates[j] == (NamedStates[i].0, name);
  }

  /** No state is listed twice. */
  lemma NamedKeysDistinct()
    ensures forall i, j | 0 <= i < j < |NamedStates| :: NamedStates[i].0 != NamedStates[j].0
  {
    RenderStateValues();
  }
}

=== FILE: shader.dfy ===
/** gShader (src/gShader.cpp): the uniform registry of a shader program.
    A fixed table of MAX_UNIFORM slots, the first `count` of which hold
    registered uniforms. Writes are two-phase: setUniform copies the value
    into the slot's own buffer and marks it dirty; flush uploads exactly the
    dirty slots, highest slot first, and clears their dirty flags. */
module Shader {
  import opened Base
  import Gl

  const MAX_UNIFORM: nat := 200

  /** The "no uniform" id: -1, the value the registry's own error path
      returns and the value cleanUniform stores in the field the
      constructor fills with it. */
  const InvalidUniformID: int := -1

  type PosNat = n: nat | n > 0 witness 1

  /** sizeof(GLint) and sizeof(GLfloat): 32-bit types in every GL binding. */
  const SizeOfGLint: PosNat := 4
  const SizeOfGLfloat: PosNat := 4

  /** Sizes of the grm vector and matrix types; their definitions are not
      part of this model, so they stay abstract positive constants. */
  const SizeOfVector2: PosNat
  const SizeOfVector3: PosNat
  const SizeOfVector4: PosNat
  const SizeOfMatrix3x3: PosNat
  const SizeOfMatrix4x4: PosNat

  /** UniformVariable. `Unlisted` stands for every value the switches in
      registry and flush do not name (their default branches). */
  datatype UniformVariable =
    BOOL | INT | FLOAT | VEC2 | VEC3 | VEC4 | MAT3 | MAT4 | SAMPLER2D | SAMPLERCUBE | Unlisted

  /** The element size registry multiplies the count by, and flush divides
      the stride by: integers and samplers share GLint's size. */
  function ElementSize(v: UniformVariable): (r: Option<PosNat>)
    ensures r.None? <==> v == Unlisted
    ensures v in {BOOL, INT, SAMPLER2D, SAMPLERCUBE} ==> r == Some(SizeOfGLint)
    ensures v == FLOAT ==> r == Some(SizeOfGLfloat)
  {
    match v
    case BOOL => Some(SizeOfGLint)
    case INT => Some(SizeOfGLint)
    case SAMPLER2D => Some(SizeOfGLint)
    case SAMPLERCUBE => Some(SizeOfGLint)
    case FLOAT => Some(SizeOfGLfloat)
    case VEC2 => Some(SizeOfVector2)
    case VEC3 => Some(SizeOfVector3)
    case VEC4 => Some(SizeOfVector4)
    case MAT3 => Some(SizeOfMatrix3x3)
    case MAT4 => Some(SizeOfMatrix4x4)
    case Unlisted => None
  }

  /** The glUniform* entry point flush picks for a variable type. */
  function UploadKindOf(v: UniformVariable): (r: Option<Gl.UploadKind>)
    ensures r.None? <==> v == Unlisted
    ensures v in {BOOL, INT, SAMPLER2D, SAMPLERCUBE} ==> r == Some(Gl.Int1)
  {
    match v
    case BOOL => Some(Gl.Int1)
    case INT => Some(Gl.Int1)
    case SAMPLER2D => Some(Gl.Int1)
    case SAMPLERCUBE => Some(Gl.Int1)
    case FLOAT => Some(Gl.Float1)
    case VEC2 => Some(Gl.Float2)
    case VEC3 => Some(Gl.Float3)
    case VEC4 => Some(Gl.Float4)
    case MAT3 => Some(Gl.Matrix3)
    case MAT4 => Some(Gl.Matrix4)
    case Unlisted => None
  }

  /** One slot: name and data are owned C strings/buffers (None is null),
      `location` is the program's uniform location (the `index` field). */
  datatype Uniform = Uniform(
    name: Option<string>,
    variable: UniformVariable,
    location: int,
    stride: nat,
    data: Option<seq<byte>>,
    dirty: bool)

  /** A slot as the constructor leaves it: calloc'd, then name and data
      null, index invalid and not dirty. */
  const EmptySlot: Uniform := Uniform(None, Unlisted, InvalidUniformID, 0, None, false)

  /** The shader: its program name (None is InvalidShaderID), the link
      status `valid`, the slot table and numUniform. */
  datatype Shader = Shader(program: Option<u32>, valid: bool, slots: seq<Uniform>, count: nat)

  /** A slot holding a registered uniform: it has a name, a buffer of exactly
      `stride` bytes, and a type registry accepts. */
  predicate Registered(u: Uniform)
  {
    && u.name.Some?
    && u.data.Some?
    && |u.data.value| == u.stride
    && u.variable != Unlisted
  }

  /** A slot past numUniform: no name, no buffer, zero stride, not dirty. */
  predicate Vacant(u: Uniform)
  {
    u.name.None? && u.data.None? && u.stride == 0 && !u.dirty
  }

  /** The table invariant every operation keeps: MAX_UNIFORM slots, at most
      MAX_UNIFORM - 1 of them registered, registered slots first, and no name
      registered twice. */
  predicate Valid(s: Shader)
  {
    && |s.slots| == MAX_UNIFORM
    && s.count < MAX_UNIFORM
    && (forall i | 0 <= i < s.count :: Registered(s.slots[i]))
    && (forall i | s.count <= i < |s.slots| :: Vacant(s.slots[i]))
    && (forall i, j | 0 <= i < j < s.count :: s.slots[i].name != s.slots[j].name)
  }

  /** isValid: linked and holding a program name. */
  predicate IsValid(s: Shader)
  {
    s.valid && s.program.Some?
  }

  /** The constructor. */
  function NewShader(): (r: Shader)
    ensures Valid(r) && r.count == 0 && !IsValid(r)
    ensures forall i | 0 <= i < |r.slots| ::
              r.slots[i].name.None? && r.slots[i].data.None?
              && r.slots[i].location == InvalidUniformID && !r.slots[i].dirty
  {
    Shader(None, false, seq(MAX_UNIFORM, _ => EmptySlot), 0)
  }

  // ***** lookup ***** //

  /** The scan of findUniform from slot `from` on. */
  function FindFrom(slots: seq<Uniform>, name: string, from: nat): (r: int)
    requires from <= |slots|
    ensures r == InvalidUniformID || from <= r < |slots|
    ensures r == InvalidUniformID <==> forall j | from <= j < |slots| :: slots[j].name != Some(name)
    ensures r != InvalidUniformID ==>
              slots[r].name == Some(name) && forall j | from <= j < r :: slots[j].name != Some(name)
    decreases |slots| - from
  {
    if from == |slots| then InvalidUniformID
    else if slots[from].name == Some(name) then from
    else FindFrom(slots, name, from + 1)
  }

  /** findUniform: the lowest slot whose name equals the query (slots with a
      null name never match), or InvalidUniformID when there is none. */
  function FindUniform(s: Shader, name: string): (r: int)
    ensures r == InvalidUniformID || 0 <= r < |s.slots|
    ensures r == InvalidUniformID <==> forall j | 0 <= j < |s.slots| :: s.slots[j].name != Some(name)
    ensures r != InvalidUniformID ==>
              s.slots[r].name == Some(name) && forall j | 0 <= j < r :: s.slots[j].name != Some(name)
  {
    FindFrom(s.slots, name, 0)
  }

  /** In a valid table a name is found exactly at the registered slot that
      holds it. */
  lemma FindRegistered(s: Shader, name: string, i: nat)
    requires Valid(s)
    requires i < s.count && s.slots[i].name == Some(name)
    ensures FindUniform(s, name) == i
  {
    var r := FindUniform(s, name);
    NamedSlotIsRegistered(s, r);
  }

  /** Only registered slots carry a name. */
  lemma NamedSlotIsRegistered(s: Shader, i: int)
    requires Valid(s)
    requires 0 <= i < |s.slots| && s.slots[i].name.Some?
    ensures i < s.count
  {
  }

  /** getName: null for InvalidUniformID, the slot's name otherwise. */
  function GetName(s: Shader, id: int): (r: Option<string>)
    requires id == InvalidUniformID || 0 <= id < |s.slots|
    ensures id == InvalidUniformID ==> r.None?
    ensures Valid(s) && id != InvalidUniformID ==> (r.Some? <==> id < s.count)
  {
    if id == InvalidUniformID then None else s.slots[id].name
  }

  // ***** registration ***** //

  /** registry(name, count, variable). `location` is what
      glGetUniformLocation answers for the name. A name already present
      returns its slot and changes nothing. Otherwise the call is refused,
      returning InvalidUniformID with the table unchanged, when the table
      already holds MAX_UNIFORM - 1 uniforms, when the location is -1, or
      when the type is not one the switch lists. A new uniform goes to slot
      numUniform with stride count x element size, a fresh buffer, and no
      dirty flag, and numUniform grows by one. */
  function Registry(s: Shader, name: string, count: u32, variable: UniformVariable, location: int)
    : (r: (Shader, int))
    requires Valid(s)
    ensures Valid(r.0)
    ensures r.1 == InvalidUniformID || (0 <= r.1 < r.0.count && r.0.slots[r.1].name == Some(name))
    ensures FindUniform(s, name) != InvalidUniformID ==> r == (s, FindUniform(s, name))
    ensures r.1 == InvalidUniformID <==>
              FindUniform(s, name) == InvalidUniformID
              && (s.count + 1 >= MAX_UNIFORM || location == -1 || variable == Unlisted)
    ensures r.1 == InvalidUniformID ==> r.0 == s
    ensures r.0 != s ==>
              && r.1 == s.count
              && r.0.count == s.count + 1
              && r.0.slots[r.1].location == location
              && r.0.slots[r.1].variable == variable
              && r.0.slots[r.1].stride == count * ElementSize(variable).value
              && !r.0.slots[r.1].dirty
              && (forall j | 0 <= j < |s.slots| && j != r.1 :: r.0.slots[j] == s.slots[j])
  {
    var found := FindUniform(s, name);
    if found != InvalidUniformID then (s, found)
    else if s.count + 1 >= MAX_UNIFORM then (s, InvalidUniformID)
    else if location == -1 then (s, InvalidUniformID)
    else
      match ElementSize(variable)
      case None => (s, -1)
      case Some(size) =>
        var stride := count * size;
        var u := Uniform(Some(name), variable, location, stride, Some(seq(stride, _ => 0)), false);
        (s.(slots := s.slots[s.count := u], count := s.count + 1), s.count)
  }

  /** Registering a name twice gives the same id and leaves the second call
      without effect; the id reads back the name through getName and
      findUniform. */
  lemma RegistryIdempotent(s: Shader, name: string, c1: u32, v1: UniformVariable, l1: int,
                           c2: u32, v2: UniformVariable, l2: int)
    requires Valid(s)
    requires Registry(s, name, c1, v1, l1).1 != InvalidUniformID
    ensures var (s1, id) := Registry(s, name, c1, v1, l1);
            && Registry(s1, name, c2, v2, l2) == (s1, id)
            && GetName(s1, id) == Some(name)
            && FindUniform(s1, name) == id
  {
    var (s1, id) := Registry(s, name, c1, v1, l1);
    FindRegistered(s1, name, id);
  }

  // ***** two-phase write ***** //

  /** setUniform(id, data). A null `data` fails and changes nothing. So does
      a slot without a buffer: memcpy hands back its null destination, which
      the code tests for. Otherwise `stride` bytes are copied into the slot's
      buffer, the slot becomes dirty and the call succeeds. The caller must
      pass an id inside the table and, for a registered slot, at least
      `stride` readable bytes. */
  function SetUniformById(s: Shader, id: int, data: Option<seq<byte>>): (r: (Shader, bool))
    requires Valid(s)
    requires 0 <= id < MAX_UNIFORM
    requires data.Some? && id < s.count ==> |data.value| >= s.slots[id].stride
    ensures Valid(r.0)
    ensures r.1 <==> data.Some? && id < s.count
    ensures !r.1 ==> r.0 == s
    ensures r.1 ==> r.0.count == s.count && r.0.slots[id].dirty
                    && r.0.slots[id].data == Some(data.value[..s.slots[id].stride])
                    && r.0.slots[id] == s.slots[id].(data := r.0.slots[id].data, dirty := true)
                    && forall j | 0 <= j < |s.slots| && j != id :: r.0.slots[j] == s.slots[j]
  {
    var u := s.slots[id];
    if data.None? || u.data.None? then (s, false)
    else
      var u' := u.(data := Some(data.value[..u.stride]), dirty := true);
      (s.(slots := s.slots[id := u']), true)
  }

  /** setUniform(name, data): false for a name not registered, otherwise
      exactly setUniform(id, data) on the registered slot findUniform
      returns. */
  function SetUniformByName(s: Shader, name: string, data: Option<seq<byte>>): (r: (Shader, bool))
    requires Valid(s)
    requires data.Some? && FindUniform(s, name) != InvalidUniformID
             ==> |data.value| >= s.slots[FindUniform(s, name)].stride
    ensures Valid(r.0)
    ensures FindUniform(s, name) == InvalidUniformID ==> r == (s, false)
    ensures r.1 <==> data.Some? && FindUniform(s, name) != InvalidUniformID
    ensures FindUniform(s, name) != InvalidUniformID ==>
              0 <= FindUniform(s, name) < s.count && r == SetUniformById(s, FindUniform(s, name), data)
  {
    var id := FindUniform(s, name);
    if id == InvalidUniformID then (s, false)
    else
      NamedSlotIsRegistered(s, id);
      SetUniformById(s, id, data)
  }

  // ***** flush ***** //

  /** The upload flush issues for a dirty slot: the type's glUniform* call
      at the slot's location with stride / element-size elements. Nothing
      for a type the switch does not list. */
  function UploadOf(u: Uniform): (r: Option<Gl.Cmd>)
    ensures r.None? <==> u.variable == Unlisted
    ensures r.Some? ==> r.value.UniformUpload? && r.value.location == u.location
                        && r.value.count == u.stride / ElementSize(u.variable).value
  {
    match (UploadKindOf(u.variable), ElementSize(u.variable))
    case (Some(kind), Some(size)) =>
      Some(Gl.UniformUpload(kind, u.location, u.stride / size, if u.data.Some? then u.data.value else []))
    case _ => None
  }

  /** The uploads flush issues for slots lo..hi-1: the higher slots first. */
  function FlushTrace(slots: seq<Uniform>, lo: nat, hi: nat): seq<Gl.Cmd>
    requires lo <= hi <= |slots|
    decreases hi - lo
  {
    if lo == hi then []
    else
      var here := if slots[lo].dirty && UploadOf(slots[lo]).Some? then [UploadOf(slots[lo]).value] else [];
      FlushTrace(slots, lo + 1, hi) + here
  }

  /** The dirty slots among lo..hi-1, highest first. */
  function DirtySlots(slots: seq<Uniform>, lo: nat, hi: nat): seq<nat>
    requires lo <= hi <= |slots|
    decreases hi - lo
  {
    if lo == hi then []
    else DirtySlots(slots, lo + 1, hi) + (if slots[lo].dirty then [lo] else [])
  }

  /** DirtySlots lists every dirty slot of the range once, nothing else, in
      strictly descending order. */
  lemma {:induction false} DirtySlotsExact(slots: seq<Uniform>, lo: nat, hi: nat)
    requires lo <= hi <= |slots|
    ensures forall i :: i in DirtySlots(slots, lo, hi) <==> lo <= i < hi && slots[i].dirty
    ensures forall a, b | 0 <= a < b < |DirtySlots(slots, lo, hi)| ::
              DirtySlots(slots, lo, hi)[a] > DirtySlots(slots, lo, hi)[b]
    decreases hi - lo
  {
    if lo < hi {
      DirtySlotsExact(slots, lo + 1, hi);
      var rest := DirtySlots(slots, lo + 1, hi);
      var here: seq<nat> := if slots[lo].dirty then [lo] else [];
      var all := DirtySlots(slots, lo, hi);
      assert all == rest + here;
      forall a, b | 0 <= a < b < |all| ensures all[a] > all[b] {
        if b < |rest| {
          assert all[a] == rest[a] && all[b] == rest[b];
        } else {
          assert all[a] == rest[a] && rest[a] in rest;
        }
      }
    }
  }

  /** When every dirty slot has a listed type (as in a valid table), flush
      issues exactly one upload per dirty slot, in the order of DirtySlots. */
  lemma {:induction false} FlushTraceFollowsDirtySlots(slots: seq<Uniform>, lo: nat, hi: nat)
    requires lo <= hi <= |slots|
    requires forall i | lo <= i < hi && slots[i].dirty :: slots[i].variable != Unlisted
    ensures |FlushTrace(slots, lo, hi)| == |DirtySlots(slots, lo, hi)|
    ensures forall k | 0 <= k < |FlushTrace(slots, lo, hi)| ::
              DirtySlots(slots, lo, hi)[k] < |slots|
              && UploadOf(slots[DirtySlots(slots, lo, hi)[k]]) == Some(FlushTrace(slots, lo, hi)[k])
    decreases hi - lo
  {
    if lo < hi {
      FlushTraceFollowsDirtySlots(slots, lo + 1, hi);
      DirtySlotsExact(slots, lo + 1, hi);
    }
  }

  /** With no dirty slot, flush issues nothing: a second flush is silent. */
  lemma {:induction false} CleanTableFlushesNothing(slots: seq<Uniform>, lo: nat, hi: nat)
    requires lo <= hi <= |slots|
    requires forall i | lo <= i < hi :: !slots[i].dirty
    ensures FlushTrace(slots, lo, hi) == []
    decreases hi - lo
  {
    if lo < hi {
      CleanTableFlushesNothing(slots, lo + 1, hi);
    }
  }

  /** flush: walks the registered slots from numUniform - 1 down to 0; each
      dirty slot has its flag cleared and its upload issued. Names, types,
      locations, strides and data are left alone, and afterwards no slot is
      dirty. */
  method Flush(s: Shader) returns (s': Shader, trace: seq<Gl.Cmd>)
    requires Valid(s)
    ensures Valid(s')
    ensures trace == FlushTrace(s.slots, 0, s.count)
    ensures s'.count == s.count && s'.program == s.program && s'.valid == s.valid
    ensures |s'.slots| == |s.slots|
    ensures forall i | 0 <= i < |s.slots| :: s'.slots[i] == s.slots[i].(dirty := false)
  {
    var slots := s.slots;
    trace := [];
    var temp := s.count;
    while temp > 0
      invariant 0 <= temp <= s.count
      invariant |slots| == |s.slots|
      invariant forall i | 0 <= i < |slots| ::
                  slots[i] == if temp <= i then s.slots[i].(dirty := false) else s.slots[i]
      invariant trace == FlushTrace(s.slots, temp, s.count)
    {
      temp := temp - 1;
      var u := slots[temp];
      if u.dirty {
        slots := slots[temp := u.(dirty := false)];
        match UploadOf(u) {
          case Some(c) => trace := trace + [c];
          case None =>
        }
      }
    }
    s' := s.(slots := slots);
  }

  /** (c * k) / k == c for a positive k. */
  lemma MulDivCancel(c: nat, k: PosNat)
    ensures (c * k) / k == c
  {
    var q := (c * k) / k;
    var m := (c * k) % k;
    assert c * k == q * k + m;
    assert (c - q) * k == m;
    MulSign(c - q, k);
  }

  lemma MulSign(d: int, k: PosNat)
    ensures d >= 1 ==> d * k >= k
    ensures d <= -1 ==> d * k <= 0 - k
  {
  }

  /** registry, then setUniform, then flush: the flush uploads the copied
      value at the registered location, with exactly the registered number
      of elements, and nothing for the other, clean slots. */
  lemma RegisterSetFlush(s: Shader, name: string, count: u32, variable: UniformVariable,
                         location: int, value: seq<byte>)
    requires Valid(s)
    requires forall i | 0 <= i < s.count :: !s.slots[i].dirty
    requires FindUniform(s, name) == InvalidUniformID
    requires s.count + 1 < MAX_UNIFORM && location != -1 && variable != Unlisted
    requires |value| >= count * ElementSize(variable).value
    ensures var (s1, id) := Registry(s, name, count, variable, location);
            var (s2, ok) := SetUniformById(s1, id, Some(value));
            && ok
            && FlushTrace(s2.slots, 0, s2.count)
               == [Gl.UniformUpload(UploadKindOf(variable).value, location, count,
                           value[..count * ElementSize(variable).value])]
  {
    var (s1, id) := Registry(s, name, count, variable, location);
    var (s2, ok) := SetUniformById(s1, id, Some(value));
    var size := ElementSize(variable).value;
    MulDivCancel(count, size);
    assert id == s.count && s2.count == id + 1;
    FlushTraceSplit(s2.slots, 0, id, id + 1);
    CleanTableFlushesNothing(s2.slots, 0, id);
  }

  /** The uploads of a range are those of its upper part followed by those
      of its lower part. */
  lemma {:induction false} FlushTraceSplit(slots: seq<Uniform>, lo: nat, mid: nat, hi: nat)
    requires lo <= mid <= hi <= |slots|
    ensures FlushTrace(slots, lo, hi) == FlushTrace(slots, mid, hi) + FlushTrace(slots, lo, mid)
    decreases mid - lo
  {
    if lo < mid {
      FlushTraceSplit(slots, lo + 1, mid, hi);
    }
  }

  // ***** reset ***** //

  /** cleanUniform: every slot loses its name and buffer, its stride becomes
      0, its location -1 and its dirty flag false; numUniform becomes 0.
      Afterwards no name is found. */
  function CleanUniform(s: Shader): (r: Shader)
    requires |s.slots| == MAX_UNIFORM
    ensures Valid(r) && r.count == 0
    ensures r.program == s.program && r.valid == s.valid && |r.slots| == |s.slots|
    ensures forall i | 0 <= i < |r.slots| ::
              r.slots[i] == Uniform(None, s.slots[i].variable, -1, 0, None, false)
    ensures forall name: string :: FindUniform(r, name) == InvalidUniformID
  {
    var slots := seq(|s.slots|, i requires 0 <= i < |s.slots| =>
                       s.slots[i].(name := None, data := None, stride := 0, location := -1, dirty := false));
    s.(slots := slots, count := 0)
  }
}

=== FILE: texture.dfy ===
/** gTexture (src/gTexture.cpp): a texture object whose behaviour is driven
    by one 32-bit flag word. The grouped setters clear a group of bits and
    OR in the caller's bits; pure decision functions read the word to pick
    the binding target, the cubemap face of an upload, the wrap mode and the
    filters; updateBuffer issues the resulting native calls. */
module Texture {
  import opened Base
  import opened Gl
  import opened Common

  /** The texture's state: m_width, m_height, textureID, texture_flags and
      m_format. */
  datatype Texture = Texture(width: u32, height: u32, id: u32, flags: Flags, format: TextureFormat)

  // ***** the flag word ***** //

  predicate IsCubemap(flags: Flags)
  {
    Has(flags, FlagCubemap)
  }

  predicate IsTexture2D(flags: Flags)
  {
    Has(flags, FlagTexture)
  }

  predicate IsValid(tex: Texture)
  {
    tex.id != InvalidTextureID
  }

  /** The shape shared by set_filtering, set_clamping and set_face: clear the
      group, then OR in the argument. */
  function ReplaceGroup(flags: Flags, group: Flags, bits: Flags): Flags
  {
    (flags & !group) | bits
  }

  /** An argument confined to the group leaves every other bit as it was. */
  lemma ReplaceGroupFrame(flags: Flags, group: Flags, bits: Flags)
    requires bits & !group == 0
    ensures ReplaceGroup(flags, group, bits) & !group == flags & !group
  {
  }

  /** set_filtering: the four filter bits are replaced by the argument's. */
  function SetFiltering(flags: Flags, filter: Flags): (r: Flags)
    ensures r & FilterMask == filter & FilterMask
    ensures r & !FilterMask == (flags | filter) & !FilterMask
  {
    ReplaceGroup(flags, FilterMask, filter)
  }

  /** set_clamping: the three clamp bits are replaced by the argument's. */
  function SetClamping(flags: Flags, clamp: Flags): (r: Flags)
    ensures r & ClampMask == clamp & ClampMask
    ensures r & !ClampMask == (flags | clamp) & !ClampMask
  {
    ReplaceGroup(flags, ClampMask, clamp)
  }

  /** set_face: the six face bits are replaced by the argument's. */
  function SetFace(flags: Flags, face: Flags): (r: Flags)
    ensures r & FaceAll == face & FaceAll
    ensures r & !FaceAll == (flags | face) & !FaceAll
  {
    ReplaceGroup(flags, FaceAll, face)
  }

  /** set_texture: an argument asking for both a 2D texture and a cubemap is
      narrowed to the 2D texture alone; then the kind bits are replaced. The
      result is never both a cubemap and a 2D texture, whatever the argument
      and the previous word. */
  function SetTexture(flags: Flags, kind: Flags): (r: Flags)
    ensures !(IsCubemap(r) && IsTexture2D(r))
    ensures IsTexture2D(r) <==> IsTexture2D(kind)
  {
    var narrowed := if IsTexture2D(kind) && IsCubemap(kind) then FlagTexture else kind;
    (flags & !KindMask) | narrowed
  }

  /** After set_texture the word is a cubemap exactly when the argument asked
      for a cubemap and not for a 2D texture. */
  lemma SetTextureCubemap(flags: Flags, kind: Flags)
    ensures IsCubemap(SetTexture(flags, kind)) <==> IsCubemap(kind) && !IsTexture2D(kind)
  {
  }

  /** Outside the kind bits, set_texture ORs in the argument's other bits,
      except when the argument asked for both kinds: then it keeps them all. */
  lemma SetTextureFrame(flags: Flags, kind: Flags)
    ensures IsTexture2D(kind) && IsCubemap(kind) ==>
              SetTexture(flags, kind) & !KindMask == flags & !KindMask
    ensures !(IsTexture2D(kind) && IsCubemap(kind)) ==>
              SetTexture(flags, kind) & !KindMask == (flags | kind) & !KindMask
  {
  }

  /** generate_mipmaps: sets the MipMaps bit and nothing else. */
  function GenerateMipmaps(flags: Flags): (r: Flags)
    ensures Has(r, FlagMipMaps)
    ensures r & !FlagMipMaps == flags & !FlagMipMaps
  {
    flags | FlagMipMaps
  }

  lemma {:induction false} GenerateMipmapsIdempotent(flags: Flags)
    ensures GenerateMipmaps(GenerateMipmaps(flags)) == GenerateMipmaps(flags)
  {
  }

  /** A later set_filtering overrides an earlier one that passed filter bits
      only: nothing of the earlier call survives. Likewise for set_clamping
      and set_face. */
  lemma LastGroupSetWins(flags: Flags, group: Flags, first: Flags, second: Flags)
    requires first & !group == 0
    ensures ReplaceGroup(ReplaceGroup(flags, group, first), group, second)
            == ReplaceGroup(flags, group, second)
  {
    assert ReplaceGroup(ReplaceGroup(flags, group, first), group, second)
           == (((flags & !group) | first) & !group) | second;
    ClearAfterConfinedSet(flags, group, first, second);
  }

  lemma ClearAfterConfinedSet(x: Flags, group: Flags, a: Flags, b: Flags)
    requires a & !group == 0
    ensures (((x & !group) | a) & !group) | b == (x & !group) | b
  {
  }

  /** The constructor: a 2D texture with repeat wrapping and linear
      filtering, RGB format, zero size and no native object yet. */
  function NewTexture(): (r: Texture)
    ensures r.flags == FlagTexture | FlagClampRepeat | FlagFilterLinear
    ensures r.format == TextureFormat_RGB
    ensures r.width == 0 && r.height == 0
    ensures !IsValid(r)
  {
    var flags := SetFiltering(SetClamping(SetTexture(0, FlagTexture), FlagClampRepeat), FlagFilterLinear);
    Texture(0, 0, InvalidTextureID, flags, TextureFormat_RGB)
  }

  // ***** decisions read from the flag word ***** //

  /** getTargetTexture */
  function TargetTexture(flags: Flags): (r: GLenum)
    ensures r == TEXTURE_CUBE_MAP || r == TEXTURE_2D
    ensures r == TEXTURE_CUBE_MAP <==> IsCubemap(flags)
  {
    if IsCubemap(flags) then TEXTURE_CUBE_MAP else TEXTURE_2D
  }

  function FaceTarget(f: CubemapFace): GLenum
  {
    match f
    case Front => TEXTURE_CUBE_MAP_POSITIVE_X
    case Back => TEXTURE_CUBE_MAP_NEGATIVE_X
    case Top => TEXTURE_CUBE_MAP_POSITIVE_Y
    case Bottom => TEXTURE_CUBE_MAP_NEGATIVE_Y
    case Left => TEXTURE_CUBE_MAP_POSITIVE_Z
    case Right => TEXTURE_CUBE_MAP_NEGATIVE_Z
  }

  /** Face f is set, and no face tested before it is. */
  predicate IsFirstFace(flags: Flags, f: CubemapFace)
  {
    Has(flags, FaceFlag(f)) && forall g :: FaceRank(g) < FaceRank(f) ==> !Has(flags, FaceFlag(g))
  }

  /** The face chain inside updateBuffer: the first set face in the order
      +X, -X, +Y, -Y, +Z, -Z, or none when no face bit is set. */
  function SelectedFace(flags: Flags): (r: Option<CubemapFace>)
    ensures r.None? <==> flags & FaceAll == 0
    ensures r.Some? ==> IsFirstFace(flags, r.value)
  {
    if Has(flags, FlagCubemapPositiveX) then Some(Front)
    else if Has(flags, FlagCubemapNegativeX) then Some(Back)
    else if Has(flags, FlagCubemapPositiveY) then Some(Top)
    else if Has(flags, FlagCubemapNegativeY) then Some(Bottom)
    else if Has(flags, FlagCubemapPositiveZ) then Some(Left)
    else if Has(flags, FlagCubemapNegativeZ) then Some(Right)
    else None
  }

  /** The target glTexImage2D receives: the selected face of a cubemap, the
      generic target otherwise. */
  function UploadTarget(flags: Flags): GLenum
  {
    var target := TargetTexture(flags);
    if IsCubemap(flags) then
      match SelectedFace(flags)
      case Some(f) => FaceTarget(f)
      case None => target
    else target
  }

  /** A 2D texture uploads to TEXTURE_2D; a cubemap without face bits to
      TEXTURE_CUBE_MAP; any other cubemap to the first face set. */
  lemma UploadTargetChoice(flags: Flags)
    ensures !IsCubemap(flags) ==> UploadTarget(flags) == TEXTURE_2D
    ensures IsCubemap(flags) && flags & FaceAll == 0 ==> UploadTarget(flags) == TEXTURE_CUBE_MAP
    ensures IsCubemap(flags) && flags & FaceAll != 0 ==>
              exists f :: IsFirstFace(flags, f) && UploadTarget(flags) == FaceTarget(f)
  {
    if IsCubemap(flags) && flags & FaceAll != 0 {
      var f := SelectedFace(flags).value;
      assert IsFirstFace(flags, f) && UploadTarget(flags) == FaceTarget(f);
    }
  }

  /** A face outside a face group holding exactly face f is not set. */
  lemma OnlyFaceSet(flags: Flags, f: CubemapFace, g: CubemapFace)
    requires flags & FaceAll == FaceFlag(f)
    requires g != f
    ensures !Has(flags, FaceFlag(g))
  {
    CubemapFacesAreFaceFlags();
    FaceAllIsTheSixFaces();
    assert flags & FaceFlag(g) == (flags & FaceAll) & FaceFlag(g);
  }

  /** The face named in the word is the one uploaded to: a cubemap whose
      face group holds exactly one face uploads to that face's target. */
  lemma SingleFaceUpload(flags: Flags, f: CubemapFace)
    requires IsCubemap(flags)
    requires flags & FaceAll == FaceFlag(f)
    ensures UploadTarget(flags) == FaceTarget(f)
  {
    forall g | g != f ensures !Has(flags, FaceFlag(g)) {
      OnlyFaceSet(flags, f, g);
    }
  }

  /** Selecting a cubemap and then one face makes every later upload go to
      that face, whatever the word held before. */
  lemma SetFaceThenUpload(flags: Flags, f: CubemapFace)
    ensures UploadTarget(SetFace(SetTexture(flags, FlagCubemap), FaceFlag(f))) == FaceTarget(f)
  {
    CubemapFacesAreFaceFlags();
    FaceAllIsTheSixFaces();
    var w := SetFace(SetTexture(flags, FlagCubemap), FaceFlag(f));
    assert IsCubemap(w);
    SingleFaceUpload(w, f);
  }

  /** The wrap mode apply_clamping uses: Clamp_Edge beats Clamp_Border beats
      the default REPEAT. */
  function WrapMode(flags: Flags): (r: GLenum)
    ensures r == CLAMP_TO_EDGE <==> Has(flags, FlagClampEdge)
    ensures r == CLAMP_TO_BORDER <==> !Has(flags, FlagClampEdge) && Has(flags, FlagClampBorder)
    ensures r == REPEAT <==> !Has(flags, FlagClampEdge) && !Has(flags, FlagClampBorder)
  {
    if Has(flags, FlagClampEdge) then CLAMP_TO_EDGE
    else if Has(flags, FlagClampBorder) then CLAMP_TO_BORDER
    else REPEAT
  }

  /** Each clamp flag, set alone through set_clamping, selects its own wrap
      mode, whatever the word held before. */
  lemma SetClampingSelectsWrap(flags: Flags)
    ensures WrapMode(SetClamping(flags, FlagClampEdge)) == CLAMP_TO_EDGE
    ensures WrapMode(SetClamping(flags, FlagClampBorder)) == CLAMP_TO_BORDER
    ensures WrapMode(SetClamping(flags, FlagClampRepeat)) == REPEAT
  {
  }

  /** The magnification filter: LINEAR if the Linear bit is set, else
      NEAREST if the Nearest bit is set, else LINEAR. */
  function MagFilter(flags: Flags): (r: GLenum)
    ensures r == NEAREST <==> !Has(flags, FlagFilterLinear) && Has(flags, FlagFilterNearest)
    ensures r == LINEAR <==> Has(flags, FlagFilterLinear) || !Has(flags, FlagFilterNearest)
  {
    if Has(flags, FlagFilterLinear) then LINEAR
    else if Has(flags, FlagFilterNearest) then NEAREST
    else LINEAR
  }

  /** The minification filter. With MipMaps: Trilinear gives
      LINEAR_MIPMAP_LINEAR, else Bilinear gives LINEAR_MIPMAP_NEAREST, else
      LINEAR. Without MipMaps it follows the magnification rule. */
  function MinFilter(flags: Flags): (r: GLenum)
    ensures !Has(flags, FlagMipMaps) ==> r == MagFilter(flags)
    ensures Has(flags, FlagMipMaps) ==>
              (r == LINEAR_MIPMAP_LINEAR <==> Has(flags, FlagFilterTrilinear))
    ensures Has(flags, FlagMipMaps) ==>
              (r == LINEAR_MIPMAP_NEAREST <==>
                 !Has(flags, FlagFilterTrilinear) && Has(flags, FlagFilterBilinear))
    ensures Has(flags, FlagMipMaps) ==>
              (r == LINEAR <==>
                 !Has(flags, FlagFilterTrilinear) && !Has(flags, FlagFilterBilinear))
  {
    if Has(flags, FlagMipMaps) then
      if Has(flags, FlagFilterTrilinear) then LINEAR_MIPMAP_LINEAR
      else if Has(flags, FlagFilterBilinear) then LINEAR_MIPMAP_NEAREST
      else LINEAR
    else if Has(flags, FlagFilterLinear) then LINEAR
    else if Has(flags, FlagFilterNearest) then NEAREST
    else LINEAR
  }

  /** Choosing Nearest through set_filtering gives nearest sampling both
      ways on a word without mipmaps, but on a mipmapped word it still
      minifies linearly; Linear gives linear sampling both ways; Trilinear
      after generate_mipmaps gives the trilinear minifier. */
  lemma SetFilteringSelectsFilters(flags: Flags)
    ensures !Has(flags, FlagMipMaps) ==>
              MagFilter(SetFiltering(flags, FlagFilterNearest)) == NEAREST
              && MinFilter(SetFiltering(flags, FlagFilterNearest)) == NEAREST
    ensures MinFilter(SetFiltering(GenerateMipmaps(flags), FlagFilterNearest)) == LINEAR
            && MagFilter(SetFiltering(GenerateMipmaps(flags), FlagFilterNearest)) == NEAREST
    ensures MagFilter(SetFiltering(flags, FlagFilterLinear)) == LINEAR
    ensures !Has(flags, FlagMipMaps) ==> MinFilter(SetFiltering(flags, FlagFilterLinear)) == LINEAR
    ensures MinFilter(SetFiltering(GenerateMipmaps(flags), FlagFilterTrilinear)) == LINEAR_MIPMAP_LINEAR
    ensures MinFilter(SetFiltering(GenerateMipmaps(flags), FlagFilterBilinear)) == LINEAR_MIPMAP_NEAREST
  {
  }

  // ***** the format table ***** //

  datatype FormatInfo = FormatInfo(internalFormat: GLenum, format: GLenum, pixelType: GLenum)

  /** The formats whose name ends in 16F or 32F: half and single float
      colour formats. */
  predicate IsFloatFormat(f: TextureFormat)
  {
    || f == TextureFormat_RGB16F || f == TextureFormat_RGB32F
    || f == TextureFormat_RGBA16F || f == TextureFormat_RGBA32F || f == TextureFormat_RG16F
    || f == TextureFormat_RG32F
  }

  /** The formats whose name carries an alpha channel. */
  predicate HasAlpha(f: TextureFormat)
  {
    || f == TextureFormat_SRGBA || f == TextureFormat_RGBA || f == TextureFormat_RGBA4444
    || f == TextureFormat_RGBA8888 || f == TextureFormat_RGBA16F || f == TextureFormat_RGBA32F
  }

  /** gTexture::TextureFormatInfoMapping: the (internal format, pixel
      format, pixel type) row of each format. The table is indexed by the
      enumerator's value, and every value is in range of its 20 rows. */
  function FormatInfoOf(f: TextureFormat): FormatInfo
  {
    match f
    case TextureFormat_RGB => FormatInfo(RGB, RGB, UNSIGNED_BYTE)
    case TextureFormat_SRGB => FormatInfo(SRGB, RGB, UNSIGNED_BYTE)
    case TextureFormat_RGB332 => FormatInfo(RGB, RGB, UNSIGNED_BYTE_3_3_2)
    case TextureFormat_RGB444 => FormatInfo(RGB4, RGB, UNSIGNED_SHORT_4_4_4_4)
    case TextureFormat_RGB565 => FormatInfo(RGB, RGB, UNSIGNED_SHORT_5_6_5)
    case TextureFormat_RGB888 => FormatInfo(RGB8, RGB, UNSIGNED_BYTE)
    case TextureFormat_SRGBA => FormatInfo(SRGB_ALPHA, RGBA, UNSIGNED_BYTE)
    case TextureFormat_RGBA => FormatInfo(RGBA, RGBA, UNSIGNED_BYTE)
    case TextureFormat_RGBA4444 => FormatInfo(RGBA4, RGBA, UNSIGNED_SHORT_4_4_4_4)
    case TextureFormat_RGBA8888 => FormatInfo(RGBA8, RGBA, UNSIGNED_BYTE)
    case TextureFormat_DepthComponent => FormatInfo(DEPTH_COMPONENT, DEPTH_COMPONENT, FLOAT)
    case TextureFormat_RED_INTEGER => FormatInfo(R32I, RED_INTEGER, INT)
    case TextureFormat_RGB16F => FormatInfo(RGB16F, RGB, FLOAT)
    case TextureFormat_RGB32F => FormatInfo(RGB32F, RGB, FLOAT)
    case TextureFormat_RGBA16F => FormatInfo(RGBA16F, RGB, FLOAT)
    case TextureFormat_RGBA32F => FormatInfo(RGBA32F, RGB, FLOAT)
    case TextureFormat_RED => FormatInfo(RED, RED, UNSIGNED_BYTE)
    case TextureFormat_RG => FormatInfo(RG, RG, UNSIGNED_BYTE)
    case TextureFormat_RG16F => FormatInfo(RG16F, RG, FLOAT)
    case TextureFormat_RG32F => FormatInfo(RG32F, RG, FLOAT)
  }

  /** The row's pixel type is FLOAT exactly for the floating-point formats. */
  lemma FormatInfoFloatRows(f: TextureFormat)
    ensures FormatInfoOf(f).pixelType == FLOAT <==> IsFloatFormat(f) || f == TextureFormat_DepthComponent
  {
  }

  /** The row's pixel format is RGBA exactly for the 8-bit formats with
      alpha: the two half/single float RGBA rows upload with pixel format
      RGB. */
  lemma FormatInfoAlphaRows(f: TextureFormat)
    ensures FormatInfoOf(f).format == RGBA <==> HasAlpha(f) && !IsFloatFormat(f)
    ensures HasAlpha(f) && IsFloatFormat(f) ==> FormatInfoOf(f).format == RGB
  {
  }

  /** No two formats share a row: the triple determines the format. */
  lemma FormatInfoInjective(f: TextureFormat, g: TextureFormat)
    requires FormatInfoOf(f) == FormatInfoOf(g)
    ensures f == g
  {
  }

  // ***** native calls ***** //

  /** What updateBuffer's sampler calls need from the flag word: the binding
      target, whether mipmaps are wanted, the wrap mode and the two filters.
      The calls themselves depend on the word only through these. */
  datatype Sampler = Sampler(target: GLenum, mipmaps: bool, wrap: GLenum,
                             minFilter: GLenum, magFilter: GLenum)

  function SamplerOf(flags: Flags): Sampler
  {
    Sampler(TargetTexture(flags), Has(flags, FlagMipMaps), WrapMode(flags),
            MinFilter(flags), MagFilter(flags))
  }

  /** apply_mipmaps: one glGenerateMipmap on the target when mipmaps are
      wanted, nothing otherwise. */
  function ApplyMipmaps(s: Sampler): (r: seq<Cmd>)
    ensures |r| <= 1
    ensures |r| == 1 <==> s.mipmaps
    ensures forall c | c in r :: c == GenerateMipmap(s.target)
  {
    if s.mipmaps then [GenerateMipmap(s.target)] else []
  }

  /** apply_clamping: the three wrap coordinates S, R, T, in that order,
      always receive the same wrap mode. */
  function ApplyClamping(s: Sampler): (r: seq<Cmd>)
    ensures |r| == 3
    ensures forall i | 0 <= i < 3 :: r[i].TexParameteri?
              && r[i].target == s.target && r[i].param == s.wrap
    ensures r[0].pname == TEXTURE_WRAP_S && r[1].pname == TEXTURE_WRAP_R
            && r[2].pname == TEXTURE_WRAP_T
  {
    [TexParameteri(s.target, TEXTURE_WRAP_S, s.wrap),
     TexParameteri(s.target, TEXTURE_WRAP_R, s.wrap),
     TexParameteri(s.target, TEXTURE_WRAP_T, s.wrap)]
  }

  /** apply_filtering: the minifier, then the magnifier. */
  function ApplyFiltering(s: Sampler): (r: seq<Cmd>)
    ensures |r| == 2
    ensures r[0] == TexParameteri(s.target, TEXTURE_MIN_FILTER, s.minFilter)
    ensures r[1] == TexParameteri(s.target, TEXTURE_MAG_FILTER, s.magFilter)
  {
    [TexParameteri(s.target, TEXTURE_MIN_FILTER, s.minFilter),
     TexParameteri(s.target, TEXTURE_MAG_FILTER, s.magFilter)]
  }

  /** The sampler calls a word yields: mipmaps exactly when MipMaps is set,
      all three wrap coordinates with WrapMode, then MinFilter and MagFilter,
      each on the word's target. */
  lemma SamplerCallsFollowFlags(flags: Flags)
    ensures |ApplyMipmaps(SamplerOf(flags))| == 1 <==> Has(flags, FlagMipMaps)
    ensures forall c | c in ApplyMipmaps(SamplerOf(flags)) :: c == GenerateMipmap(TargetTexture(flags))
    ensures forall c | c in ApplyClamping(SamplerOf(flags)) ::
              c.TexParameteri? && c.target == TargetTexture(flags) && c.param == WrapMode(flags)
    ensures ApplyFiltering(SamplerOf(flags))
            == [TexParameteri(TargetTexture(flags), TEXTURE_MIN_FILTER, MinFilter(flags)),
                TexParameteri(TargetTexture(flags), TEXTURE_MAG_FILTER, MagFilter(flags))]
  {
  }

  /** Everything the calls of updateBuffer depend on, as decided from the
      texture before the call: whether it already has a valid name (and
      which), the upload target, the format's table row and the sampler
      state. */
  datatype Plan = Plan(valid: bool, id: u32, upload: GLenum, info: FormatInfo, sampler: Sampler)

  function PlanOf(tex: Texture): Plan
  {
    Plan(IsValid(tex), tex.id, UploadTarget(tex.flags), FormatInfoOf(tex.format), SamplerOf(tex.flags))
  }

  /** The index of the glTexImage2D call in the trace of updateBuffer. */
  function ImageIndex(p: Plan): nat
  {
    if p.valid then 1 else 2
  }

  /** The calls of updateBuffer before the upload: a name is generated only
      while the texture has none, then the texture is bound. */
  function UpdatePrologue(p: Plan, generated: u32): (r: seq<Cmd>)
    ensures |r| == ImageIndex(p)
    ensures r[0] == GenTextures(generated) <==> !p.valid
    ensures r[|r| - 1] == BindTexture(p.sampler.target, if p.valid then p.id else generated)
    ensures p.valid ==> r == [BindTexture(p.sampler.target, p.id)]
  {
    var bind := BindTexture(p.sampler.target, if p.valid then p.id else generated);
    if p.valid then [bind] else [GenTextures(generated), bind]
  }

  /** The calls of updateBuffer after the upload: sampler state, then the
      texture is unbound. No name is generated and no image uploaded. */
  function UpdateEpilogue(s: Sampler): (r: seq<Cmd>)
    ensures |r| == 6 + (if s.mipmaps then 1 else 0)
    ensures forall c | c in r :: !c.GenTextures? && !c.TexImage2D?
    ensures r[|r| - 1] == BindTexture(s.target, 0)
    ensures r == ApplyMipmaps(s) + ApplyClamping(s) + ApplyFiltering(s) + [BindTexture(s.target, 0)]
  {
    var clamping := ApplyClamping(s);
    var filtering := ApplyFiltering(s);
    assert forall c | c in clamping + filtering :: c.TexParameteri?;
    ApplyMipmaps(s) + (clamping + filtering) + [BindTexture(s.target, 0)]
  }

  /** The calls of updateBuffer: the prologue, the one upload, the
      epilogue. */
  function UpdateCalls(p: Plan, width: u32, height: u32, generated: u32): seq<Cmd>
  {
    UpdatePrologue(p, generated)
    + [TexImage2D(p.upload, p.info.internalFormat, width, height, p.info.format, p.info.pixelType)]
    + UpdateEpilogue(p.sampler)
  }

  /** updateBuffer. `generated` is the name glGenTextures hands back; it is
      asked for only while the texture has no valid name. The new size is
      stored, and the name once the texture has one. */
  function UpdateBuffer(tex: Texture, width: u32, height: u32, generated: u32): (r: (Texture, seq<Cmd>))
    ensures r.0.id == (if IsValid(tex) then tex.id else generated)
    ensures r.0 == tex.(width := width, height := height, id := r.0.id)
  {
    var id := if IsValid(tex) then tex.id else generated;
    (tex.(width := width, height := height, id := id), UpdateCalls(PlanOf(tex), width, height, generated))
  }

  /** The calls of updateBuffer open with glGenTextures exactly when there
      is no valid name, and the texture is then bound under the kept or
      generated name. Mipmaps add one call to the fixed seven that follow. */
  lemma UpdateBufferTrace(p: Plan, width: u32, height: u32, generated: u32)
    ensures var t := UpdateCalls(p, width, height, generated);
            && |t| == ImageIndex(p) + 7 + (if p.sampler.mipmaps then 1 else 0)
            && (t[0] == GenTextures(generated) <==> !p.valid)
            && t[ImageIndex(p) - 1] == BindTexture(p.sampler.target, if p.valid then p.id else generated)
  {
    var pro := UpdatePrologue(p, generated);
    var t := UpdateCalls(p, width, height, generated);
    assert t[0] == pro[0];
    assert t[|pro| - 1] == pro[|pro| - 1];
  }

  /** Right after the bind, the image is uploaded to the upload target with
      the format's table row; the target is unbound last. */
  lemma UpdateBufferUpload(p: Plan, width: u32, height: u32, generated: u32)
    ensures var t := UpdateCalls(p, width, height, generated);
            && ImageIndex(p) < |t|
            && t[ImageIndex(p)] == TexImage2D(p.upload, p.info.internalFormat, width, height,
                                              p.info.format, p.info.pixelType)
            && t[|t| - 1] == BindTexture(p.sampler.target, 0)
  {
    var pro := UpdatePrologue(p, generated);
    var epi := UpdateEpilogue(p.sampler);
    var t := UpdateCalls(p, width, height, generated);
    assert t[|pro|] == TexImage2D(p.upload, p.info.internalFormat, width, height,
                                  p.info.format, p.info.pixelType);
    assert t[|t| - 1] == epi[|epi| - 1];
  }

  /** After the upload, updateBuffer applies the word's sampler state in
      the order apply_mipmaps, apply_clamping, apply_filtering, and then
      unbinds the target; SamplerCallsFollowFlags says what those calls
      are for the word. */
  lemma UpdateBufferSamplerCalls(tex: Texture, width: u32, height: u32, generated: u32)
    ensures var t := UpdateBuffer(tex, width, height, generated).1;
            var s := SamplerOf(tex.flags);
            && ImageIndex(PlanOf(tex)) < |t|
            && t[ImageIndex(PlanOf(tex)) + 1..]
               == ApplyMipmaps(s) + ApplyClamping(s) + ApplyFiltering(s) + [BindTexture(TargetTexture(tex.flags), 0)]
  {
    var p := PlanOf(tex);
    var pro := UpdatePrologue(p, generated);
    var img := TexImage2D(p.upload, p.info.internalFormat, width, height, p.info.format, p.info.pixelType);
    var t := UpdateCalls(p, width, height, generated);
    assert t == (pro + [img]) + UpdateEpilogue(p.sampler);
    assert t[|pro| + 1..] == UpdateEpilogue(p.sampler);
  }

  /** For a texture, the one image updateBuffer uploads goes to the word's
      upload target with its own format's table row. */
  lemma UpdateBufferImage(tex: Texture, width: u32, height: u32, generated: u32)
    ensures var t := UpdateBuffer(tex, width, height, generated).1;
            var info := FormatInfoOf(tex.format);
            && ImageIndex(PlanOf(tex)) < |t|
            && t[ImageIndex(PlanOf(tex))]
               == TexImage2D(UploadTarget(tex.flags), info.internalFormat, width, height, info.format, info.pixelType)
  {
    UpdateBufferUpload(PlanOf(tex), width, height, generated);
  }

  /** A cubemap whose face group holds exactly face f has its image
      uploaded to f's target by updateBuffer. */
  lemma UpdateBufferSingleFace(tex: Texture, width: u32, height: u32, generated: u32, f: CubemapFace)
    requires IsCubemap(tex.flags)
    requires tex.flags & FaceAll == FaceFlag(f)
    ensures var t := UpdateBuffer(tex, width, height, generated).1;
            ImageIndex(PlanOf(tex)) < |t| && t[ImageIndex(PlanOf(tex))].TexImage2D?
            && t[ImageIndex(PlanOf(tex))].target == FaceTarget(f)
  {
    UpdateBufferImage(tex, width, height, generated);
    SingleFaceUpload(tex.flags, f);
  }

  /** updateBuffer uploads exactly one image, at ImageIndex. */
  lemma UpdateBufferSingleUpload(p: Plan, width: u32, height: u32, generated: u32)
    ensures var t := UpdateCalls(p, width, height, generated);
            forall i | 0 <= i < |t| && i != ImageIndex(p) :: !t[i].TexImage2D?
  {
    var pro := UpdatePrologue(p, generated);
    var epi := UpdateEpilogue(p.sampler);
    var t := UpdateCalls(p, width, height, generated);
    var k := |pro|;
    forall i | 0 <= i < |t| && i != k ensures !t[i].TexImage2D? {
      if i > k {
        assert t[i] == epi[i - k - 1] && epi[i - k - 1] in epi;
      } else {
        assert t[i] == pro[i];
      }
    }
  }

  /** updateBuffer asks for a name nowhere but in its first call. */
  lemma UpdateBufferNameFirst(p: Plan, width: u32, height: u32, generated: u32)
    ensures var t := UpdateCalls(p, width, height, generated);
            forall i | 0 < i < |t| :: !t[i].GenTextures?
  {
    var pro := UpdatePrologue(p, generated);
    var epi := UpdateEpilogue(p.sampler);
    var t := UpdateCalls(p, width, height, generated);
    var k := |pro|;
    forall i | 0 < i < |t| ensures !t[i].GenTextures? {
      if i > k {
        assert t[i] == epi[i - k - 1] && epi[i - k - 1] in epi;
      } else if i < k {
        assert t[i] == pro[i];
      }
    }
  }

  /** A texture that already has a valid name is bound under it and no
      name is asked for anywhere in the calls. */
  lemma ValidNameNotRegenerated(p: Plan, width: u32, height: u32, generated: u32)
    requires p.valid
    ensures forall i | 0 <= i < |UpdateCalls(p, width, height, generated)| ::
              !UpdateCalls(p, width, height, generated)[i].GenTextures?
  {
    var t := UpdateCalls(p, width, height, generated);
    UpdateBufferTrace(p, width, height, generated);
    UpdateBufferNameFirst(p, width, height, generated);
    assert t[0] == BindTexture(p.sampler.target, p.id);
  }

  /** Once an update has obtained a valid name, later updates reuse it and
      never ask the driver for another. */
  lemma NameGeneratedOnce(tex: Texture, w1: u32, h1: u32, w2: u32, h2: u32, g1: u32, g2: u32)
    requires g1 != InvalidTextureID
    ensures var first := UpdateBuffer(tex, w1, h1, g1);
            var second := UpdateBuffer(first.0, w2, h2, g2);
            IsValid(first.0) && second.0.id == first.0.id
            && forall i | 0 <= i < |second.1| :: !second.1[i].GenTextures?
  {
    ValidNameNotRegenerated(PlanOf(UpdateBuffer(tex, w1, h1, g1).0), w2, h2, g2);
  }
}

=== FILE: vertex_array.dfy ===
/** gVertexArray (src/gVertexArray.cpp): the enum-to-constant tables, the
    static buffer index (buffer name -> binding target) with its create,
    delete and bind operations and the "current buffer" cell, the resize
    loop of UpdateResizeBuffer, and the current vertex-array object.

    The class statics are one immutable value threaded through the
    operations; every native call is appended to a command trace. */
module VertexArray {
  import opened Base
  import opened Common
  import Gl

  // ***** tables ***** //

  /** gVertexArray::bufferMappings, indexed by the BufferType value. */
  const BufferMappings: seq<Gl.GLenum> := [
    Gl.ARRAY_BUFFER, Gl.ELEMENT_ARRAY_BUFFER, Gl.FRAMEBUFFER, Gl.RENDERBUFFER, Gl.TEXTURE_BUFFER
  ]

  /** gVertexArray::primitiveMappings, indexed by the PrimitiveType value. */
  const PrimitiveMappings: seq<Gl.GLenum> := [
    Gl.POINTS, Gl.LINES, Gl.LINE_LOOP, Gl.LINE_STRIP,
    Gl.TRIANGLES, Gl.TRIANGLE_STRIP, Gl.TRIANGLE_FAN
  ]

  /** The binding target the wrapper uses for a buffer type: the table entry
      its enumerator's value selects. */
  function BufferMapping(t: BufferType): (target: Gl.GLenum)
    ensures target in BufferMappings
  {
    BufferMappings[BufferTypeValue(t)]
  }

  /** The draw mode the wrapper uses for a primitive type. */
  function PrimitiveMapping(p: PrimitiveType): (mode: Gl.GLenum)
    ensures mode in PrimitiveMappings
  {
    PrimitiveMappings[PrimitiveValue(p)]
  }

  /** The GL target each buffer type is named after (the comments beside
      the table entries). */
  function TargetNamed(t: BufferType): Gl.GLenum
  {
    match t
    case VBO => Gl.ARRAY_BUFFER
    case EBO => Gl.ELEMENT_ARRAY_BUFFER
    case FBO => Gl.FRAMEBUFFER
    case RBO => Gl.RENDERBUFFER
    case TBO => Gl.TEXTURE_BUFFER
  }

  /** The GL primitive each PrimitiveType enumerator is named after. */
  function PrimitiveNamed(p: PrimitiveType): Gl.GLenum
  {
    match p
    case POINTS => Gl.POINTS
    case LINES => Gl.LINES
    case LINE_LOOP => Gl.LINE_LOOP
    case LINE_STRIP => Gl.LINE_STRIP
    case TRIANGLES => Gl.TRIANGLES
    case TRIANGLES_STRIP => Gl.TRIANGLE_STRIP
    case TRIANGLES_FAN => Gl.TRIANGLE_FAN
  }

  /** The buffer table is in enumerator order: every entry is the GL
      target its enumerator is named after, and distinct enumerators select
      distinct targets. */
  lemma MappingsFollowNames()
    ensures |BufferMappings| == 5
    ensures forall t: BufferType :: BufferMapping(t) == TargetNamed(t)
    ensures forall t, u: BufferType :: BufferMapping(t) == BufferMapping(u) ==> t == u
  {
  }

  /** Likewise for the primitive table. */
  lemma PrimitiveMappingsFollowNames()
    ensures |PrimitiveMappings| == 7
    ensures forall p: PrimitiveType :: PrimitiveMapping(p) == PrimitiveNamed(p)
    ensures forall p, q: PrimitiveType :: PrimitiveMapping(p) == PrimitiveMapping(q) ==> p == q
  {
  }

  /** The switch on BufferUsage in UpdateResizeBuffer. */
  function UsageOf(usage: BufferUsage): (num: Gl.GLenum)
    ensures num == Gl.STATIC_DRAW <==> usage == STATIC
    ensures num == Gl.DYNAMIC_DRAW <==> usage == DYNAMIC
  {
    match usage
    case STATIC => Gl.STATIC_DRAW
    case DYNAMIC => Gl.DYNAMIC_DRAW
  }

  // ***** buffer index ***** //

  /** m_bufferIndex (buffer name -> binding target) and s_currentBuffer,
      which holds the binding target of the last bound buffer. */
  datatype BufferIndex = BufferIndex(index: map<u32, Gl.GLenum>, current: Gl.GLenum)

  /** The statics before any call: an empty index and a zero cell. */
  function NewBufferIndex(): (b: BufferIndex)
    ensures b.index.Keys == {} && b.current == Gl.ZERO
  {
    BufferIndex(map[], Gl.ZERO)
  }

  /** What CreateBuffer returns and leaves behind. */
  datatype Created = Created(index: map<u32, Gl.GLenum>, id: Option<u32>, trace: seq<Gl.Cmd>)

  /** CreateBuffer: `generated` is the name glGenBuffers writes, `hasData`
      says whether the data pointer is non-null. A zero name yields
      InvalidBufferID (None) and records nothing; otherwise the data, if
      any, is uploaded with STATIC_DRAW through a bind/unbind pair, and the
      name is recorded with emplace, which keeps an existing entry. */
  function CreateBuffer(index: map<u32, Gl.GLenum>, target: BufferType, hasData: bool,
                        size: nat, generated: u32): (r: Created)
    ensures r.id.None? <==> generated == 0
    ensures |r.trace| >= 1 && r.trace[0] == Gl.GenBuffers(generated)
    ensures generated == 0 ==> r.index == index && |r.trace| == 1
    ensures generated != 0 ==> r.id == Some(generated) && r.index.Keys == index.Keys + {generated}
    ensures generated != 0 ==> |r.trace| == (if hasData && size > 0 then 4 else 1)
    ensures forall k | k in index :: k in r.index && r.index[k] == index[k]
    ensures generated != 0 && generated !in index ==> r.index[generated] == BufferMapping(target)
  {
    var gen := [Gl.GenBuffers(generated)];
    if generated == 0 then
      Created(index, None, gen)
    else
      var mapped := BufferMapping(target);
      var upload :=
        if hasData && size > 0 then
          [Gl.BindBuffer(mapped, generated), Gl.BufferData(mapped, size, Gl.STATIC_DRAW),
           Gl.BindBuffer(mapped, 0)]
        else [];
      var index' := if generated in index then index else index[generated := mapped];
      Created(index', Some(generated), gen + upload)
  }

  /** The upload, when there is one, binds the new name on the mapped
      target, fills it with STATIC_DRAW and unbinds the target again. */
  lemma CreateBufferUpload(index: map<u32, Gl.GLenum>, target: BufferType, size: nat, generated: u32)
    requires generated != 0 && size > 0
    ensures CreateBuffer(index, target, true, size, generated).trace ==
            [Gl.GenBuffers(generated), Gl.BindBuffer(TargetNamed(target), generated),
             Gl.BufferData(TargetNamed(target), size, Gl.STATIC_DRAW),
             Gl.BindBuffer(TargetNamed(target), 0)]
  {
    MappingsFollowNames();
  }

  /** DeleteBuffer: an unknown name is ignored without a native call; a known
      one is deleted and exactly its entry is erased. */
  function DeleteBuffer(index: map<u32, Gl.GLenum>, id: u32): (r: (map<u32, Gl.GLenum>, seq<Gl.Cmd>))
    ensures id !in index ==> r.0 == index && r.1 == []
    ensures id in index ==> r.1 == [Gl.DeleteBuffers(id)]
    ensures r.0.Keys == index.Keys - {id}
    ensures forall k | k in r.0 :: r.0[k] == index[k]
  {
    if id !in index then (index, [])
    else (index - {id}, [Gl.DeleteBuffers(id)])
  }

  /** Bind: the cell takes the target recorded for the name and that
      target is bound. The subscript inserts name -> 0 for an unknown name,
      so the cell becomes 0 and the name becomes known. */
  function Bind(b: BufferIndex, id: u32): (r: (BufferIndex, seq<Gl.Cmd>))
    ensures r.0.current == (if id in b.index then b.index[id] else Gl.ZERO)
    ensures r.1 == [Gl.BindBuffer(r.0.current, id)]
    ensures id in r.0.index && r.0.index.Keys == b.index.Keys + {id}
    ensures forall k | k in b.index :: r.0.index[k] == b.index[k]
  {
    var (index', target) := Subscript(b.index, id, Gl.ZERO);
    (BufferIndex(index', target), [Gl.BindBuffer(target, id)])
  }

  /** A name created on a fresh slot binds on its mapped target, and once
      deleted again the index is what it was before the create. */
  lemma CreateBindDelete(b: BufferIndex, target: BufferType, hasData: bool, size: nat, generated: u32)
    requires generated != 0 && generated !in b.index
    ensures var c := CreateBuffer(b.index, target, hasData, size, generated);
            Bind(BufferIndex(c.index, b.current), generated).0.current == TargetNamed(target)
            && DeleteBuffer(c.index, generated).0 == b.index
  {
    MappingsFollowNames();
    var c := CreateBuffer(b.index, target, hasData, size, generated);
    assert DeleteBuffer(c.index, generated).0 == b.index;
  }

  /** Creating a name that is already recorded keeps the old target: a
      later Bind still uses the first target. */
  lemma CreateKeepsExistingEntry(b: BufferIndex, target: BufferType, hasData: bool, size: nat, generated: u32)
    requires generated in b.index
    ensures var c := CreateBuffer(b.index, target, hasData, size, generated);
            c.index == b.index
            && Bind(BufferIndex(c.index, b.current), generated).0.current == b.index[generated]
  {
  }

  /** Binding a name twice changes nothing the second time but repeats the
      native bind. */
  lemma BindTwice(b: BufferIndex, id: u32)
    ensures var (b1, t1) := Bind(b, id);
            var (b2, t2) := Bind(b1, id);
            b2 == b1 && t2 == t1
  {
  }

  // ***** UpdateResizeBuffer ***** //

  /** The value glGetBufferParameteriv writes into the `int arraySize`. */
  type i32 = x: int | -0x8000_0000 <= x < 0x8000_0000

  /** `size != arraySize` compares a u32 with an int: the int is converted
      to unsigned, i.e. taken modulo 2^32. */
  function ToUnsigned(x: i32): u32
  {
    if x < 0 then x + 0x1_0000_0000 else x
  }

  /** The conversion is reduction modulo 2^32, the rule for converting a
      signed value to an unsigned type. */
  lemma ToUnsignedIsModulo(x: i32)
    ensures ToUnsigned(x) == x % 0x1_0000_0000
  {
  }

  /** The loop condition is false: the queried size equals the request. */
  predicate Settles(size: u32, reported: i32)
  {
    ToUnsigned(reported) == size
  }

  /** A non-negative report settles exactly on the requested size; a
      negative one is compared after conversion to unsigned, so it settles
      exactly when the request is the report plus 2^32. */
  lemma SettlesOnEqualSize(size: u32, reported: i32)
    ensures reported >= 0 ==> (Settles(size, reported) <==> reported == size)
    ensures reported < 0 ==> (Settles(size, reported) <==> size == reported + 0x1_0000_0000)
  {
  }

  /** The calls of n rounds: the first size query, then per round one
      reallocation and one query. `reported[i]` is the value the i-th
      query returns. */
  function ResizeTrace(target: Gl.GLenum, size: u32, num: Gl.GLenum, reported: seq<i32>, n: nat): seq<Gl.Cmd>
    requires n < |reported|
  {
    if n == 0 then [Gl.GetBufferSize(target, reported[0])]
    else ResizeTrace(target, size, num, reported, n - 1)
         + [Gl.BufferData(target, size, num), Gl.GetBufferSize(target, reported[n])]
  }

  /** The trace alternates queries (even positions, the i-th reporting
      reported[i]) and reallocations of `size` bytes with usage `num` (odd
      positions). */
  lemma {:induction false} ResizeTraceShape(target: Gl.GLenum, size: u32, num: Gl.GLenum,
                                            reported: seq<i32>, n: nat)
    requires n < |reported|
    ensures |ResizeTrace(target, size, num, reported, n)| == 2 * n + 1
    ensures forall i | 0 <= i < 2 * n + 1 ::
              ResizeTrace(target, size, num, reported, n)[i] ==
              (if i % 2 == 0 then Gl.GetBufferSize(target, reported[i / 2])
               else Gl.BufferData(target, size, num))
  {
    if n > 0 {
      ResizeTraceShape(target, size, num, reported, n - 1);
    }
  }

  /** UpdateResizeBuffer on the bound target `current`: the queried sizes
      come from `reported`, one per query. The loop reallocates until a
      query reports the requested size; `rounds` is None when the reports
      run out first. */
  method UpdateResizeBuffer(current: Gl.GLenum, size: u32, usage: BufferUsage, reported: seq<i32>)
    returns (trace: seq<Gl.Cmd>, rounds: Option<nat>)
    ensures rounds.None? ==> forall n | 0 <= n < |reported| :: !Settles(size, reported[n])
    ensures rounds.Some? ==> rounds.value < |reported| && Settles(size, reported[rounds.value])
    ensures rounds.Some? ==> forall j | 0 <= j < rounds.value :: !Settles(size, reported[j])
    ensures |reported| > 0 ==>
              trace == ResizeTrace(current, size, UsageOf(usage), reported,
                                   if rounds.Some? then rounds.value else |reported| - 1)
  {
    if |reported| == 0 {
      return [], None;
    }
    var num := UsageOf(usage);
    trace := [Gl.GetBufferSize(current, reported[0])];
    var n := 0;
    while n + 1 < |reported| && !Settles(size, reported[n])
      invariant 0 <= n < |reported|
      invariant forall j | 0 <= j < n :: !Settles(size, reported[j])
      invariant trace == ResizeTrace(current, size, num, reported, n)
      decreases |reported| - n
    {
      trace := trace + [Gl.BufferData(current, size, num), Gl.GetBufferSize(current, reported[n + 1])];
      n := n + 1;
    }
    rounds := if Settles(size, reported[n]) then Some(n) else None;
  }

  // ***** vertex-array object ***** //

  /** A gVertexArray instance: its VAO name. */
  datatype VertexArrayObject = VertexArrayObject(vertexID: u32)

  /** bind(): the VAO is bound and becomes m_instance. */
  function BindInstance(vao: VertexArrayObject): (r: (Option<VertexArrayObject>, seq<Gl.Cmd>))
    ensures r.0 == Some(vao)
    ensures |r.1| == 1 && r.1[0].BindVertexArray? && r.1[0].vao == vao.vertexID
  {
    (Some(vao), [Gl.BindVertexArray(vao.vertexID)])
  }

  /** unbind(): vertex array 0 is bound and m_instance becomes null,
      whichever instance was current. */
  function UnbindInstance(current: Option<VertexArrayObject>): (r: (Option<VertexArrayObject>, seq<Gl.Cmd>))
    ensures r.0.None?
    ensures |r.1| == 1 && r.1[0].BindVertexArray? && r.1[0].vao == 0
  {
    (None, [Gl.BindVertexArray(0)])
  }

  /** bind then unbind, from any current instance, ends in the state unbind
      alone would leave, after exactly two calls: the object's VAO is bound
      and then vertex array 0. */
  lemma BindThenUnbind(vao: VertexArrayObject, current: Option<VertexArrayObject>)
    ensures var (cur, t1) := BindInstance(vao);
            var (after, t2) := UnbindInstance(cur);
            && after == UnbindInstance(current).0
            && t1 + t2 == [Gl.BindVertexArray(vao.vertexID), Gl.BindVertexArray(0)]
  {
  }
}
